=== FILE: README.md ===
# GOFileShare in Dafny

A model of the core of GOFileShare, a Go/Gin file-sharing server with two
browser front ends, and proofs of what that core does.

The model covers four parts of the program:

- **The listing handlers** of `handlers/disk.go`:
  - `GetShared` serves `/api/shared` and `GetDirectory` serves `/directory`.
  - Both default the paging parameters and test the path against the shared roots.
  - Both flag and classify each entry, drop files whose MIME type cannot be detected, and sort folders first and then by name.
  - Both answer one offset/limit window of the sorted list, together with its total. The window's end is computed on 64-bit `int`, so an offset plus limit past the largest `int` wraps and the slice panics.
- **`GetFile`** (`/file`): path decoding, the scope test and thumbnails, plus the single byte range of a `Range` header. The range handling follows section 2.1 of RFC 7233 (byte ranges), section 4.2 (Content-Range) and section 4.4 (416 Range Not Satisfiable) in part.
- **The shared-folder registry** of `db/database.go`: the in-memory `SharedFolders` list behind add, remove and load.
- **The two front ends**:
  - `static/js/script.js`: the breadcrumb, `formatSize`, the disk-usage badge and the offset/hasMore cursor.
  - `static/mobile.js`: the loading/hasMore pager with self-refill, the backslash breadcrumb with scope-enabled links, and its own `formatSize`.

Files and modules:

| file | module | contents |
|---|---|---|
| base.dfy | Base | `Option`, prefixes, Go string order, split/join, filter, the shared-scope test, decimal numbers, `strconv.ParseInt`, JavaScript rounding and `toFixed` |
| models.dfy | Models | `Disk`, `DirEntry`, `FileInfo`, and the `Host` record of foreign services |
| listing.dfy | Listing | `GetShared`, `GetDirectory` and their pipeline |
| fileserve.dfy | FileServe | `GetFile` and the `Range` parser |
| registry.dfy | Registry | `AddSharedFolder`, `RemoveSharedFolder`, `LoadSharedFolders` |
| desktop.dfy | Desktop | the logic of `static/js/script.js` |
| mobile.dfy | Mobile | the logic of `static/mobile.js` |

Calls the handlers make into code outside the model are fields of the `Host` datatype (`Models.Host`). Each field is a function-typed parameter that stands for what the call returns. This covers:

- `filepath.Clean`, `IsAbs`, `Join` and `Dir`;
- `os.Stat`, `os.Open` with `Readdir`, and `File.Stat`/`Seek`;
- `mimetype.DetectFile`;
- `url.QueryEscape` and `QueryUnescape`;
- the `imaging` thumbnail pipeline;
- the per-OS volume enumeration;
- the clock.

The registry takes `filepath.Clean`, `os.Stat` and the outcome of each SQL statement as parameters.

The front ends are modelled as pure transitions on small state records. A fetch is a value, and its reply is an argument of the next transition.

JavaScript numbers are modelled exactly where the program's values allow it:

- A size divided by a power of 1024, or a used/total ratio, is rounded with integer arithmetic, halves upward. This matches `Math.round` and the digit choice of `toFixed`.
- `toFixed(places)` is rendered as an integer part, a point, and exactly `places` digits.

## Model

| member | source | states |
|---|---|---|
| Models.NewDirEntry | models/disk.go:32-42 | an entry copies the name, kind and size of the file; it starts with no media type, no thumbnail, and not shared |
| Listing.LimitParam | handlers/disk.go:82-87 | `limit` is the parsed value when that is a positive integer and 50 otherwise, so it is always at least 1 |
| Listing.OffsetParam | handlers/disk.go:88-91 | `offset` is the parsed value when that is a non-negative integer and 0 otherwise |
| Listing.DefaultPage | handlers/disk.go:206-215 | a missing, empty or negative parameter gives limit 50 and offset 0; a zero limit gives 50 |
| Listing.ScopeVariants | handlers/disk.go:117-127 | a path is in scope iff it equals a shared root or starts with the root plus the separator; with no roots, `GetShared`'s test refuses and `GetDirectory`/`GetFile`'s test admits; otherwise the two agree |
| Listing.SiblingIsOutside | handlers/disk.go:119 | `/a/bc` is outside the root `/a/b`, while `/a/b/c` is inside |
| Listing.SharingSlashCoversOnlySlash | handlers/disk.go:117-127 | when `/` is shared, a cleaned path is in scope iff it is `/` itself; nothing below the file-system root is reachable |
| Listing.Classify | handlers/disk.go:150-164 | audio iff an audio type matches; video iff a video type and no audio type matches; image iff an image type and no later family matches; otherwise the entry is unchanged; name, path, kind and size are never touched; an image's thumbnail is `/file?path=` plus the escaped cleaned path plus `&thumbnail=true`, a video's is the video icon and an audio file's the audio icon |
| Listing.MatchesRoot | handlers/disk.go:166-174 | the first-match loop answers true iff the path equals some cleaned root |
| Listing.EntryFor | handlers/disk.go:144-174 | an entry keeps the file's name, kind and size, is shared iff its path equals a cleaned root, and is never given a media type or thumbnail when it is a folder |
| Listing.CollectLength | handlers/disk.go:311-344 | there are exactly as many collected entries as files that are folders or whose MIME type was detected |
| Listing.CollectSound | handlers/disk.go:311-344 | every collected entry is the entry of a folder, or of a file whose MIME type was detected |
| Listing.CollectComplete | handlers/disk.go:311-344 | every folder and every file whose MIME type was detected has its entry in the collection |
| Listing.CollectOne | handlers/disk.go:147-150 | a file whose MIME type cannot be detected contributes nothing; a kept file contributes its entry |
| Listing.CollectAppend | handlers/disk.go:311-344 | collection keeps directory order: it distributes over concatenation of the file list |
| Listing.SharedRootEntries | handlers/disk.go:96-107 | the top-level shared view has exactly as many entries as there are roots whose cleaned path can be stat'ed, and each is marked shared without a media type |
| Listing.SharedRootEntriesSound | handlers/disk.go:96-107 | every entry of the top-level view is the shared entry of a root whose cleaned path can be stat'ed |
| Listing.SharedRootEntriesComplete | handlers/disk.go:96-107 | every root whose cleaned path can be stat'ed has its shared entry in the top-level view |
| Listing.RootEntry | handlers/disk.go:97-105 | a root gives an entry iff its cleaned path can be stat'ed; the entry carries the stat'ed name, is marked shared and has no media type |
| Listing.SharedRootEntriesAppend | handlers/disk.go:96-107 | the top-level view keeps the order of the shared roots: it distributes over concatenation of the root list |
| Listing.DiskEntries | handlers/disk.go:259-272 | each enumerated volume becomes a folder entry with its name, path and space figures, in order |
| Listing.Insert | handlers/disk.go:180-185 | inserting into a list in listing order gives a permutation in listing order |
| Listing.SortEntries | handlers/disk.go:345-350 | the sort is a permutation in which every folder precedes every file and names ascend, in Go string order, within each kind |
| Listing.Window | handlers/disk.go:187-201 | `total` is the length of the whole list; an offset at or past it gives no entries; otherwise the entries are exactly `all[offset..min(offset+limit, total)]`, with between 1 and `limit` of them |
| Listing.Paginate | handlers/disk.go:352-366 | on 64-bit `int`, the handler panics (a bare 500 from gin's Recovery) iff the offset is below the total and offset + limit exceeds the largest `int`; in every other case it answers exactly the window |
| Listing.ReadFrom | handlers/disk.go:352-366 | successive windows, each starting where the last ended, read the list from the first offset to the end exactly once |
| Listing.GetShared | handlers/disk.go:80-202 | a page holds at most `limit` entries; 400 iff a non-empty path cleans to a relative one; 403 iff it is absolute and outside every root; with no roots every non-empty path fails; a panic needs offset + limit past the largest `int` |
| Listing.GetDirectory | handlers/disk.go:204-367 | a page holds at most `limit` entries; 400 iff a non-empty path cleans to a relative one; 403 iff the path is absolute, the request path is not `/directory`, and the open scope test fails; a panic needs offset + limit past the largest `int` |
| Listing.RelativePathReadsNothing | handlers/disk.go:110-114 | a relative path gets 400 from both handlers, whatever reading the directory would give |
| Listing.DirectoryRouteNeverForbidden | handlers/disk.go:284-294 | on the `/directory` route, the only one that reaches `GetDirectory`, its 403 never fires |
| Listing.EmptyShareListDisagrees | handlers/disk.go:284-290 | with nothing shared, `GetShared` refuses every absolute path with 403, while `GetDirectory` reads it |
| Listing.SharedTopLevelShape | handlers/disk.go:96-202 | with no path, `/api/shared` pages the sorted entries of the shared folders: the folders that can be stat'ed, each of them and nothing else, counted by the total |
| Listing.SharedListingShape | handlers/disk.go:108-202 | an absolute path inside a shared folder is read: a failure to open it or to read it is a 500 with its own message, and otherwise the answer is the page of its sorted kept entries at the parsed offset and limit |
| Listing.DirectoryListingShape | handlers/disk.go:277-366 | an absolute, admitted path whose directory reads is answered as `Paginate` answers the sorted kept entries at the parsed offset and limit: their window, or a panic when offset + limit overflows |
| Listing.ListingWindow | handlers/disk.go:352-366 | the total counts every folder and every file whose MIME type was detected; an offset at or past it gives no entries; below it, the entries are the sorted entries from the offset to `min(offset+limit, total)` while offset + limit fits in 64 bits, and otherwise the handler panics |
| Listing.OverflowingLimitPanics | handlers/disk.go:352-363 | a directory request whose offset is below the number of kept entries, and whose offset + limit passes the largest `int`, is answered with a panic (a bare 500), not a page; `offset=1&limit=9223372036854775807` on two kept entries is one |
| FileServe.TrimPrefix | handlers/disk.go:448 | the prefix is removed exactly when present, and otherwise the text is unchanged |
| FileServe.ParseRange | handlers/disk.go:439-470 | an empty header means the whole body; a satisfiable range has `0 <= start <= end < size`; every header on an empty file is refused; which range a header names is stated by the range lemmas below |
| FileServe.RangeRoundTrip | handlers/disk.go:448-470 | the header `bytes=a-b` with `a <= b < size` parses to exactly the bytes a..b, which `ServeBody` then serves |
| FileServe.OpenEndedRange | handlers/disk.go:458-459 | `bytes=a-` runs to the last byte |
| FileServe.LastPositionClamped | handlers/disk.go:460-465 | a last position at or beyond the end is clamped to the last byte rather than refused |
| FileServe.SuffixRangeRefused | handlers/disk.go:453-457 | the suffix form `bytes=-n` is refused with 416 |
| FileServe.RangeListRefused | handlers/disk.go:448-452 | every header whose text after `bytes=` does not hold exactly one dash, which covers every list of ranges and every value naming no range, is refused with 416 |
| FileServe.TwoRangesRefused | handlers/disk.go:448-452 | the list `bytes=0-1,5-6` is refused with 416 |
| FileServe.InvertedRangeRefused | handlers/disk.go:467-470 | a start beyond the last position is refused with 416 |
| FileServe.StartPastFileRefused | handlers/disk.go:467-470 | a start at or past the file size is refused with 416, whatever follows the dash: `bytes=10-20` and `bytes=10-` on a 10-byte file alike |
| FileServe.UnreadableStartRefused | handlers/disk.go:454-457 | a start that does not read as a 64-bit integer (not a number, or too large) is refused with 416 |
| FileServe.UnreadableEndClamped | handlers/disk.go:458-465 | an end that does not read as a 64-bit integer is not an error: `bytes=a-x` with `a < size` runs from `a` to the last byte |
| FileServe.EndBeyondInt64Clamped | handlers/disk.go:458-465 | an end written as a number past the largest 64-bit integer is such an end, so the range runs to the last byte |
| FileServe.GetFile | handlers/disk.go:369-483 | 400 "Path is required" iff the path is missing; 400 "Invalid path" iff it cannot be decoded; 403 iff the decoded, cleaned path fails the open scope test; a full body carries the opened file's size; a partial body has length at least 1, stays inside the file, and carries `bytes first-last/size` |
| FileServe.ServeOpened | handlers/disk.go:410-483 | once the file is open, an error reply is a 415 or a 500; a full body carries the file's size and needs an empty `Range` header; a partial body has length at least 1, stays inside the file, and carries `bytes first-last/size` |
| FileServe.ServeBody | handlers/disk.go:439-483 | a full body is sent iff the `Range` header is empty, with the file's size; 416 iff `ParseRange` refuses the header; a 500 iff the header parses to a range and the seek to its start fails; a partial body covers exactly the parsed bytes, so it has length at least 1, stays inside the file and carries `bytes first-last/size` |
| FileServe.FileBodyFollowsRange | handlers/disk.go:369-483 | without `thumbnail=true`, `/file` on an opened file whose type is detected answers as the parsed range says: 416 iff the parser refuses, the whole body iff there is no header, a 500 iff the seek fails, and otherwise exactly the parsed bytes |
| FileServe.TwoNumberParts | handlers/disk.go:448-465 | `bytes=a-b` splits at the dash into two parts that read back as `a` and `b` |
| FileServe.ThumbnailReply | handlers/disk.go:417-436 | a thumbnail request is answered with a JPEG or an error; it is a 415 exactly when the MIME type is none of the thumbnail types, and any other error is a 500 |
| FileServe.BmpThumbnailRefused | handlers/disk.go:416-436 | a listed BMP file is an image whose thumbnail is `/file?path=<escaped path>&thumbnail=true`, because the listing's image types include `image/bmp` (handlers/disk.go:150-154), yet requesting that URL is answered with 415 because the thumbnail types do not |
| Registry.AddSharedFolder | db/database.go:59-81 | success iff the cleaned path exists and the insert succeeds; a failed stat or insert leaves the list unchanged; after success the cleaned path is a member; a present path leaves the list unchanged; an absent one is appended at the end; no duplicates are introduced |
| Registry.AddIdempotent | db/database.go:72-79 | sharing the same path twice leaves the list as the first share left it |
| Registry.FirstIndex | db/database.go:91-96 | the loop stops at a position holding the path, and no earlier position holds it |
| Registry.RemoveFirst | db/database.go:91-97 | only the first element equal to the path is removed, and the rest keep their order; an absent path leaves the list unchanged |
| Registry.RemoveSharedFolder | db/database.go:83-99 | a failed delete returns the error and leaves the list unchanged; otherwise there is no error, only the first match is removed, duplicates are not introduced, and a list without duplicates no longer holds the path |
| Registry.AddThenRemove | db/database.go:59-99 | sharing a new path and then unsharing it restores the list |
| Registry.LoadRows | db/database.go:44-55 | the loaded list holds the cleaned form of exactly those rows that scan and whose stat succeeds |
| Registry.LoadRowsAppend | db/database.go:45-55 | loading keeps row order |
| Registry.LoadSharedFolders | db/database.go:36-57 | a failed query keeps the current list; otherwise the list is rebuilt from the rows |
| Registry.LoadOfStoredRowsIsDistinct | db/database.go:24-27 | rows as the table stores them (clean and, by the UNIQUE column, distinct) load into a list without duplicates |
| Desktop.UnitIndex | static/js/script.js:8-10 | the unit is floor(log base 1024 of the size), clamped at TB |
| Desktop.UnitShownIffScaledAtLeastTen | static/js/script.js:6-13 | the output holds a unit exactly when the size is 0 or its scaled value is at least 10 |
| Desktop.FormatSizeReadBack | static/js/script.js:11-12 | where a unit is shown, the text is a whole number within half a unit of the size, a space, and the unit of its magnitude |
| Desktop.FormatSizeDropsUnit | static/js/script.js:12 | 1536 bytes are printed as `1.5`, with no unit |
| Desktop.FormatSizeWithUnitAlwaysShowsUnit | static/js/script.js:6-13 | the corrected rendering always ends in a space and the size's unit, after a number with no space in it |
| Desktop.Usage | static/js/script.js:179-188 | the percentage is 0 for an empty total and otherwise `used*100/total` rounded; the status is critical iff the rounded value exceeds 90 and warning iff it exceeds 70 but not 90; the bar class always agrees with the status |
| Desktop.ReplaceBackslashes | static/js/script.js:24 | every backslash becomes a slash and nothing else changes |
| Desktop.CollapseSlashes | static/js/script.js:24 | no two slashes remain adjacent; the first character is kept, and no new character appears |
| Desktop.Normalize | static/js/script.js:24 | the normalised path has no backslash and no doubled slash, and it is empty iff the input is |
| Desktop.SegmentsOfNormalized | static/js/script.js:24-60 | the segments of the normalised path are the parts of the raw path between slashes and backslashes that are neither empty nor `.` |
| Desktop.Segments | static/js/script.js:56-60 | every segment is non-empty, not `.`, and slash-free |
| Desktop.CrumbParts | static/js/script.js:53-61 | one crumb label per segment, none empty |
| Desktop.Walk | static/js/script.js:64-91 | one crumb per part, labelled with it; only the last is non-clickable |
| Desktop.Breadcrumb | static/js/script.js:15-92 | the root link always comes first; an empty path adds only the "all shared folders" label, and only on the shared page; otherwise there is one crumb per part, and only the last is non-clickable |
| Desktop.CrumbTargets | static/js/script.js:64-80 | a clickable crumb k loads the first k+1 parts joined by slashes |
| Desktop.UnixTargetsAreRelative | static/js/script.js:60-69 | on an absolute Unix path every clickable crumb loads a path without the leading slash |
| Desktop.DriveTargetDoublesSlash | static/js/script.js:54-69 | on a drive path the second crumb loads the drive, two slashes and the next name, as in `C://x` |
| Desktop.IntendedTargetNamesPrefix | static/js/script.js:64-80 | the corrected target of crumb k names exactly the first k+1 segments, has no doubled slash, and is absolute on a Unix path |
| Desktop.LoadDirectory | static/js/script.js:140-149 | loading a folder remembers it and requests it at the current offset, which nothing resets |
| Desktop.LoadShared | static/js/script.js:111-121 | the shared view is requested by path alone, and the cursor is otherwise untouched |
| Desktop.DirectoryArrived | static/js/script.js:154-165 | hasMore iff `offset + limit < total`; at the root the rows are untouched; at offset 0 the rows are replaced; past the first page the page is appended |
| Desktop.SharedArrived | static/js/script.js:126-135 | a shared reply replaces the rows and stops paging |
| Desktop.OnScroll | static/js/script.js:407-416 | a reload happens iff more is expected and the view is near the bottom, and it adds exactly one limit to the offset |
| Desktop.OffsetOnlyGrowsByPages | static/js/script.js:407-416 | the scroll handler is the only place the offset changes, so over any run of events the offset never shrinks and stays a multiple of 50 |
| Desktop.HasMoreMatchesWindow | static/js/script.js:165 | against the server's window, hasMore says exactly that rows lie beyond the page just received |
| Desktop.ScrollShowsPrefix | static/js/script.js:140-168 | scrolling one folder from its first page shows a growing prefix of the server's sorted list |
| Desktop.ReopenKeepsStaleOffset | static/js/script.js:148-160 | after a scroll, opening another folder requests it at the old offset and appends that window to the old folder's rows |
| Desktop.OpenFresh | static/js/script.js:148-149 | the corrected open always requests the folder's first page |
| Desktop.OpenFreshShowsFirstPage | static/js/script.js:140-168 | opening a folder from offset 0 shows exactly its first window, whatever was shown before |
| Mobile.LoadDirectory | static/mobile.js:26-30 | while loading, or when nothing more is expected, nothing changes and nothing is fetched; otherwise the pager is marked loading and the current offset is requested |
| Mobile.Loaded | static/mobile.js:32-43 | the offset grows by the number of entries received; hasMore iff it is still below the total; rows are replaced or appended as the request said; loading stays set iff a refill is requested, which happens iff more is expected and the container is unfilled |
| Mobile.Failed | static/mobile.js:44-48 | a fetch that rejects, or a body that is not JSON, clears loading and changes nothing else |
| Mobile.ErrorReply | static/mobile.js:30-35 | an error reply, not told apart from a listing, empties the items when it answers a first page, keeps them when it answers an appended page, clears loading, and leaves the offset, hasMore and the path alone |
| Mobile.ErrorReplyVersusFailure | static/mobile.js:30-52 | an error reply to an appended page acts as a failed fetch; to a first page it differs from one exactly when items were shown |
| Mobile.ErrorOnEnterRetriesFirstPage | static/mobile.js:26-73 | after entering a folder whose listing comes back as an error reply, the view is empty, still expects entries at offset 0, and the next scroll asks for that first page again |
| Mobile.EnterFolder | static/mobile.js:68-73 | entering a folder takes its path, resets the offset to 0 and hasMore to true, and fetches its first page unless a load is in flight |
| Mobile.Home | static/mobile.js:121-126 | the home link resets the path, the offset and hasMore, and leaves the items for the disk reply |
| Mobile.DisksArrived | static/mobile.js:16-21 | the disk reply replaces the items and leaves the pager's cursor alone |
| Mobile.HomeShowsDisks | static/mobile.js:16-126 | going home and receiving the disks shows exactly the disks, at the first page of no folder |
| Mobile.OnScroll | static/mobile.js:186-192 | the next page of the current path is requested iff the view is near the bottom, more is expected and no load is in flight |
| Mobile.OnResize | static/mobile.js:194-198 | the next page is requested iff the container is unfilled, more is expected and no load is in flight |
| Mobile.EnterWhileLoadingIsDropped | static/mobile.js:26-73 | a click during a load moves the path but requests nothing |
| Mobile.LoadedExtendsPrefix | static/mobile.js:30-43 | each reply from the server's sorted list extends the items to the next prefix of that list, and hasMore says whether any remains |
| Mobile.Settle | static/mobile.js:40-42 | on a container the items never fill, refills continue until the whole folder is shown and nothing more is expected |
| Mobile.EnterFolderShowsEverything | static/mobile.js:26-43 | entering a folder on such a screen shows every entry of the folder once, in the server's order |
| Mobile.PathParts | static/mobile.js:39 | the parts are non-empty and hold no slash or backslash |
| Mobile.PrefixShape | static/mobile.js:133-142 | behind a drive each accumulated path is every part so far followed by a backslash; otherwise it is the first part followed by each later part and a backslash |
| Mobile.FirstTwoNamesGlued | static/mobile.js:141 | off a drive, the second crumb's path glues the first two names together, as in `homeuser\` |
| Mobile.PrefixesHaveNoSlash | static/mobile.js:138-142 | no accumulated path holds a slash |
| Mobile.Breadcrumbs | static/mobile.js:116-167 | one crumb per part, labelled with it; a crumb is enabled iff its accumulated path equals a shared root or starts with it plus a backslash |
| Mobile.SlashRootsDisableEveryCrumb | static/mobile.js:148-150 | shared roots written with slashes, as a Unix server reports them, enable no crumb |
| Mobile.UnitIndex | static/mobile.js:179-184 | the unit is chosen by fixed thresholds, and everything from 1 GiB up is in GB |
| Mobile.FormatSizeReadBack | static/mobile.js:179-184 | the output is a number, a space and the threshold's unit; below 1024 the number is the exact byte count, and otherwise it is the size in that unit rounded to hundredths |

## Left out

- HTTP transport, JSON binding, Gin routing, logging and the DOM are left out. A handler's reply is a value, and a front-end fetch is a request value.
- The services behind `Models.Host` are parameters, not models: path cleaning, the file system, MIME sniffing, URL escaping, thumbnails, seeking, the clock and the per-OS disk enumeration (handlers/disk_unix.go, handlers/disk_windows.go). MIME alias matching (`mime.Is`) is a name-or-alias set.
- Listing.SortEntries: `sort.Slice` is not stable, so the model proves the comparator's order and a permutation; it does not fix one tie order among equal names.
- Desktop.Usage: the percentage is the exact rational `used*100/total` rounded half up; the double-precision product and its `toFixed(0)` rounding are not modelled.
- Desktop.Usage: `Used` and `Total` are tagged `omitempty` (models/disk.go:27-28), so a disk with nothing used arrives without `used`. The page then computes `undefined / total`, shows the percentage as `NaN` and keeps the status normal (static/js/script.js:176-179 and 221-223). The model takes `used` as a number, so 0 gives 0%, and the `NaN` display is not modelled.
- Desktop.UnitIndex: `Math.log(bytes) / Math.log(1024)` is taken as the exact logarithm, so a rounding error just below a power of 1024 is not modelled.
- Desktop.FormatSize and Mobile.FormatSize treat sizes as exact integers; sizes beyond 2^53, which doubles cannot hold, are not modelled.
- Out-of-order or stale fetch replies, and the missing cancellation, are concurrency. They are not modelled: a reply is applied to the state it finds.
- The sidebar, the theme, the client-only rename stub and the `parseFloat` sort keys of `static/js/script.js` carry no statable logic and are not modelled.
- FileServe.GetFile: the 416 reply is modelled without a `Content-Range: bytes */size` header because the program sends none. The headers of a full body other than its length and type are not modelled.
- Listing.Paginate: Go's `int` is taken to be 64 bits wide, as on the 64-bit platforms the program is built for. On a 32-bit platform `strconv.Atoi` and the window's end would wrap at 2^31.
- Listing.Window: this is the window without wrap-around. The handlers reach it only through Listing.Paginate, and the front-end models use it as the server's answer, with offsets that stay far below 2^63.
- Models.NewDirEntry: `Size` is tagged `json:"size,omitempty"` (models/disk.go:22), so a zero-byte file arrives without `size`. Desktop `formatSize(undefined)` then shows `NaN undefined` and mobile shows `NaN GB`. The front-end models take the size as a number, so this is not modelled.

## Findings

| source | as written | input that shows it | evidently intended | confidence | as-written member | corrected member |
|---|---|---|---|---|---|---|
| static/js/script.js:12 | the conditional binds looser than `+`, so a scaled value below 10 is printed without its unit | 1536 bytes give `1.5` | `1.5 KB`, as Desktop.FormatSizeWithUnit renders it | not executed | Desktop.FormatSizeDropsUnit | Desktop.FormatSizeWithUnitAlwaysShowsUnit |
| static/js/script.js:60-69 | crumb targets of a Unix path drop the leading slash, and the server refuses the relative path with 400 | `/home/user/docs`: the `home` crumb loads `home` | `/home`, as Desktop.IntendedTarget gives it | not executed | Desktop.UnixTargetsAreRelative | Desktop.IntendedTargetNamesPrefix |
| static/js/script.js:57-69 | the drive part gets a slash appended and then another slash before the next name | `C:/a/b`: the `a` crumb loads `C://a` | `C:/a`, as Desktop.IntendedTarget gives it | not executed | Desktop.DriveTargetDoublesSlash | Desktop.IntendedTargetNamesPrefix |
| static/js/script.js:148-149 | opening a folder after a scroll keeps the old offset, so the new folder is requested from the old offset and appended to the old rows | scroll once in `/a` (offset 50), then open `/b`: `/b` is requested at offset 50 | `/b` requested at offset 0, replacing the rows, as Desktop.OpenFresh does | not executed | Desktop.ReopenKeepsStaleOffset | Desktop.OpenFreshShowsFirstPage |
| handlers/disk.go:352-363 | `end := offset + limit` wraps on 64-bit `int`, `end > total` is then false, and `allEntries[start:end]` panics into a bare 500 | `offset=1&limit=9223372036854775807` on a directory with two kept entries | the page from entry 1 to the end, as Listing.Window gives it | not executed | Listing.OverflowingLimitPanics | Listing.Window |

=== FILE: base.dfy ===
/** Shared vocabulary: optional values, string predicates and orders, splitting,
    filtering, the shared-scope test, and the decimal conversions that Go's
    strconv and JavaScript's number-to-string perform. */
module Base {

  datatype Option<T> = None | Some(value: T)

  // ---------------------------------------------------------------------------
  // Prefixes and the string order
  // ---------------------------------------------------------------------------

  /** `p` is a prefix of `s`: Go's strings.HasPrefix and JavaScript's startsWith. */
  predicate HasPrefix(s: string, p: string) {
    |p| <= |s| && s[..|p|] == p
  }

  /** Lexicographic order on code points, which is Go's `<` on strings (UTF-8
      byte order agrees with code-point order). */
  predicate StrLess(a: string, b: string)
    decreases |a|
  {
    if |b| == 0 then false
    else if |a| == 0 then true
    else if a[0] != b[0] then a[0] < b[0]
    else StrLess(a[1..], b[1..])
  }

  lemma {:induction false} StrLessIrreflexive(a: string)
    ensures !StrLess(a, a)
    decreases |a|
  {
    if |a| > 0 {
      StrLessIrreflexive(a[1..]);
    }
  }

  lemma {:induction false} StrLessTransitive(a: string, b: string, c: string)
    requires StrLess(a, b) && StrLess(b, c)
    ensures StrLess(a, c)
    decreases |a|
  {
    if |a| > 0 && a[0] == b[0] && b[0] == c[0] {
      StrLessTransitive(a[1..], b[1..], c[1..]);
    }
  }

  lemma {:induction false} StrLessTotal(a: string, b: string)
    requires a != b
    ensures StrLess(a, b) || StrLess(b, a)
    decreases |a|
  {
    if |a| > 0 && |b| > 0 && a[0] == b[0] {
      assert a == [a[0]] + a[1..] && b == [b[0]] + b[1..];
      StrLessTotal(a[1..], b[1..]);
    }
  }

  /** "Not less" is transitive: the order is a strict total order. */
  lemma StrNotLessTransitive(a: string, b: string, c: string)
    requires !StrLess(b, a) && !StrLess(c, b)
    ensures !StrLess(c, a)
  {
    if StrLess(c, a) {
      if a == b || b == c {
        assert false;
      }
      StrLessTotal(a, b);
      StrLessTotal(b, c);
      StrLessTransitive(a, b, c);
      StrLessTransitive(a, c, a);
      StrLessIrreflexive(a);
    }
  }

  // ---------------------------------------------------------------------------
  // Splitting, joining, filtering
  // ---------------------------------------------------------------------------

  /** Splits `s` at every character of `seps`, keeping empty parts: Go's
      strings.Split and JavaScript's String.prototype.split for a
      one-character separator when `seps` is a singleton. */
  function Split(s: string, seps: set<char>): (parts: seq<string>)
    ensures |parts| >= 1
    ensures forall i, c :: 0 <= i < |parts| && c in seps ==> c !in parts[i]
    decreases |s|
  {
    if |s| == 0 then [""]
    else
      var rest := Split(s[1..], seps);
      if s[0] in seps then [""] + rest
      else [[s[0]] + rest[0]] + rest[1..]
  }

  /** Concatenates `parts` with `sep` between neighbours: Go's strings.Join and
      JavaScript's Array.prototype.join. */
  function Join(parts: seq<string>, sep: char): string
    requires |parts| >= 1
  {
    if |parts| == 1 then parts[0] else parts[0] + [sep] + Join(parts[1..], sep)
  }

  /** Joining the parts of a split gives back the string. */
  lemma {:induction false} JoinSplit(s: string, sep: char)
    ensures Join(Split(s, {sep}), sep) == s
    decreases |s|
  {
    if |s| > 0 {
      var rest := Split(s[1..], {sep});
      JoinSplit(s[1..], sep);
      if s[0] == sep {
        assert ([""] + rest)[1..] == rest;
      } else {
        var parts := [[s[0]] + rest[0]] + rest[1..];
        assert parts[1..] == rest[1..];
        if |rest| == 1 {
          assert Join(parts, sep) == [s[0]] + rest[0];
        } else {
          assert Join(parts, sep) == [s[0]] + rest[0] + [sep] + Join(rest[1..], sep);
        }
      }
    }
  }

  lemma {:induction false} SplitWithoutSeparator(a: string, seps: set<char>)
    requires forall c :: c in seps ==> c !in a
    ensures Split(a, seps) == [a]
    decreases |a|
  {
    if |a| > 0 {
      SplitWithoutSeparator(a[1..], seps);
      assert [a[0]] + a[1..] == a;
    }
  }

  lemma {:induction false} SplitAtSeparator(a: string, sep: char, b: string, seps: set<char>)
    requires sep in seps
    requires forall c :: c in seps ==> c !in a
    ensures Split(a + [sep] + b, seps) == [a] + Split(b, seps)
    decreases |a|
  {
    var s := a + [sep] + b;
    if |a| == 0 {
      assert s[1..] == b;
    } else {
      assert s[1..] == a[1..] + [sep] + b;
      SplitAtSeparator(a[1..], sep, b, seps);
      assert [a[0]] + a[1..] == a;
    }
  }

  /** Splitting a join gives back the parts, provided no part holds the separator. */
  lemma {:induction false} SplitJoin(parts: seq<string>, sep: char)
    requires |parts| >= 1
    requires forall i :: 0 <= i < |parts| ==> sep !in parts[i]
    ensures Split(Join(parts, sep), {sep}) == parts
    decreases |parts|
  {
    if |parts| == 1 {
      SplitWithoutSeparator(parts[0], {sep});
    } else {
      SplitJoin(parts[1..], sep);
      SplitAtSeparator(parts[0], sep, Join(parts[1..], sep), {sep});
      assert [parts[0]] + parts[1..] == parts;
    }
  }

  /** Splitting at one separator gives one part more than the separator occurs. */
  lemma {:induction false} SplitCount(s: string, sep: char)
    ensures |Split(s, {sep})| == multiset(s)[sep] + 1
    decreases |s|
  {
    if |s| > 0 {
      SplitCount(s[1..], sep);
      assert s == [s[0]] + s[1..];
      assert multiset(s) == multiset{s[0]} + multiset(s[1..]);
    }
  }

  /** Join of a sequence extended at the end. */
  lemma {:induction false} JoinSnoc(parts: seq<string>, p: string, sep: char)
    requires |parts| >= 1
    ensures Join(parts + [p], sep) == Join(parts, sep) + [sep] + p
    decreases |parts|
  {
    if |parts| == 1 {
      assert (parts + [p])[1..] == [p];
    } else {
      assert (parts + [p])[1..] == parts[1..] + [p];
      JoinSnoc(parts[1..], p, sep);
    }
  }

  /** The elements of `s` that satisfy `keep`, in order: Array.prototype.filter. */
  function Filter<T(==,!new)>(s: seq<T>, keep: T -> bool): (r: seq<T>)
    ensures |r| <= |s|
    ensures forall i :: 0 <= i < |r| ==> keep(r[i])
    ensures forall x :: x in r <==> x in s && keep(x)
  {
    if |s| == 0 then []
    else if keep(s[0]) then [s[0]] + Filter(s[1..], keep)
    else Filter(s[1..], keep)
  }

  lemma AppendAssoc<T>(a: seq<T>, b: seq<T>, c: seq<T>)
    ensures a + (b + c) == (a + b) + c
  {
  }

  /** Filtering distributes over concatenation, so the order of `s` is kept. */
  lemma {:induction false} FilterAppend<T(!new)>(s: seq<T>, t: seq<T>, keep: T -> bool)
    ensures Filter(s + t, keep) == Filter(s, keep) + Filter(t, keep)
    decreases |s|
  {
    if |s| == 0 {
      assert s + t == t;
    } else {
      assert (s + t)[1..] == s[1..] + t;
      FilterAppend(s[1..], t, keep);
    }
  }

  // ---------------------------------------------------------------------------
  // The shared-scope test
  // ---------------------------------------------------------------------------

  /** `path` lies inside `root`: it is the root itself or continues it after one
      separator. */
  predicate Covers(root: string, path: string, sep: char) {
    path == root || HasPrefix(path, root + [sep])
  }

  /** The first-match loop over the shared roots (handlers/disk.go and
      static/mobile.js both stop at the first root that covers the path). */
  function AnyCovers(roots: seq<string>, path: string, sep: char): (r: bool)
    ensures r <==> exists i :: 0 <= i < |roots| && Covers(roots[i], path, sep)
  {
    if |roots| == 0 then false
    else if Covers(roots[0], path, sep) then true
    else
      var rest := AnyCovers(roots[1..], path, sep);
      assert forall i :: 1 <= i < |roots| ==> roots[i] == roots[1..][i - 1];
      rest
  }

  /** A root ending in the separator (such as "/") covers only itself: the
      prefix it asks for carries a doubled separator. */
  lemma RootWithTrailingSeparatorCoversItselfOnly(root: string, path: string, sep: char)
    requires |root| >= 1 && root[|root| - 1] == sep
    requires forall i :: 0 <= i < |path| - 1 ==> !(path[i] == sep && path[i + 1] == sep)
    ensures Covers(root, path, sep) <==> path == root
  {
    if HasPrefix(path, root + [sep]) {
      PrefixRepeatsSeparator(root, path, sep);
      assert false;
    }
  }

  lemma PrefixRepeatsSeparator(root: string, path: string, sep: char)
    requires |root| >= 1 && root[|root| - 1] == sep
    requires HasPrefix(path, root + [sep])
    ensures path[|root| - 1] == sep && path[|root|] == sep
  {
    assert path[..|root| + 1] == root + [sep];
  }

  // ---------------------------------------------------------------------------
  // Decimal numbers
  // ---------------------------------------------------------------------------

  function Pow(b: nat, e: nat): (r: nat)
    ensures b >= 1 ==> r >= 1
  {
    if e == 0 then 1 else b * Pow(b, e - 1)
  }

  const Int64Min: int := -0x8000_0000_0000_0000
  const Int64Max: int := 0x7fff_ffff_ffff_ffff
  const TwoTo64: int := 0x1_0000_0000_0000_0000

  /** Go's `int` addition on a 64-bit platform: the exact sum taken modulo
      2^64 into the signed range. */
  function AddInt64(a: int, b: int): (r: int)
    requires Int64Min <= a <= Int64Max && Int64Min <= b <= Int64Max
    ensures Int64Min <= r <= Int64Max
    ensures r == a + b || r == a + b - TwoTo64 || r == a + b + TwoTo64
  {
    var x := a + b;
    if x > Int64Max then x - TwoTo64 else if x < Int64Min then x + TwoTo64 else x
  }

  /** An ASCII letter, as the drive-letter patterns `[A-Za-z]` match. */
  predicate IsLetter(c: char) {
    'A' <= c <= 'Z' || 'a' <= c <= 'z'
  }

  predicate IsDigit(c: char) {
    '0' <= c <= '9'
  }

  predicate AllDigits(s: string) {
    forall i :: 0 <= i < |s| ==> IsDigit(s[i])
  }

  function DigitChar(d: nat): (c: char)
    requires d < 10
    ensures IsDigit(c)
  {
    ['0', '1', '2', '3', '4', '5', '6', '7', '8', '9'][d]
  }

  function DigitValue(c: char): (d: nat)
    requires IsDigit(c)
    ensures d < 10
  {
    (c as int - '0' as int) as nat
  }

  lemma DigitRoundTrip(d: nat)
    requires d < 10
    ensures DigitValue(DigitChar(d)) == d
  {
  }

  /** The value of a string of decimal digits, most significant first. */
  function DigitsValue(s: string): nat
    requires AllDigits(s)
  {
    if |s| == 0 then 0 else DigitsValue(s[..|s| - 1]) * 10 + DigitValue(s[|s| - 1])
  }

  /** Decimal rendering without leading zeros: strconv.FormatInt for a
      non-negative value and JavaScript's String(n) for a safe integer. */
  function NatToString(n: nat): (r: string)
    ensures |r| >= 1 && AllDigits(r)
    ensures DigitsValue(r) == n
    ensures |r| > 1 ==> r[0] != '0'
  {
    if n < 10 then [DigitChar(n)]
    else
      var r := NatToString(n / 10) + [DigitChar(n % 10)];
      assert r[..|r| - 1] == NatToString(n / 10);
      DigitRoundTrip(n % 10);
      r
  }

  /** Exactly `width` digits: `n` modulo 10^width, padded with leading zeros. */
  function PaddedDigits(n: nat, width: nat): (r: string)
    ensures |r| == width && AllDigits(r)
    ensures DigitsValue(r) == n % Pow(10, width)
  {
    if width == 0 then ""
    else
      var r := PaddedDigits(n / 10, width - 1) + [DigitChar(n % 10)];
      assert r[..|r| - 1] == PaddedDigits(n / 10, width - 1);
      DigitRoundTrip(n % 10);
      ModPowStep(n, width);
      r
  }

  lemma ModPowStep(n: nat, width: nat)
    requires width >= 1
    ensures n % Pow(10, width) == (n / 10) % Pow(10, width - 1) * 10 + n % 10
  {
    var p := Pow(10, width - 1);
    var q := (n / 10) / p;
    var m := (n / 10) % p;
    assert n / 10 == q * p + m;
    assert n == (n / 10) * 10 + n % 10;
    assert n == q * (10 * p) + (m * 10 + n % 10) by {
      assert (q * p + m) * 10 == q * (10 * p) + m * 10;
    }
    assert m * 10 + n % 10 < 10 * p by {
      assert m <= p - 1;
      assert m * 10 <= (p - 1) * 10;
    }
    DivModUnique(n, 10 * p, q, m * 10 + n % 10);
  }

  /** The quotient and remainder of a division are the only such pair. */
  lemma DivModUnique(n: int, d: int, q: int, m: int)
    requires d > 0 && 0 <= m < d && n == q * d + m
    ensures n % d == m && n / d == q
  {
    var q', m' := n / d, n % d;
    assert (q - q') * d == m' - m;
    if q - q' >= 1 {
      assert false;
    } else if q - q' <= -1 {
      assert false;
    }
  }

  /** strconv.ParseInt(s, 10, 64): an optional sign, then one or more decimal
      digits, and the value must fit in 64 bits; anything else is an error. */
  function ParseInt64(s: string): (r: Option<int>)
    ensures r.Some? ==> Int64Min <= r.value <= Int64Max
    ensures r.Some? && '-' !in s ==> r.value >= 0
    ensures r.Some? ==> |s| >= 1
  {
    if |s| == 0 then None
    else
      var signed := s[0] == '+' || s[0] == '-';
      var body := if signed then s[1..] else s;
      if |body| == 0 || !AllDigits(body) then None
      else
        var v: int := if s[0] == '-' then -(DigitsValue(body) as int) else DigitsValue(body);
        if Int64Min <= v <= Int64Max then Some(v) else None
  }

  /** Parsing a rendered non-negative 64-bit value gives the value back. */
  lemma ParseFormatRoundTrip(n: nat)
    requires n <= Int64Max
    ensures ParseInt64(NatToString(n)) == Some(n)
  {
    var s := NatToString(n);
    assert IsDigit(s[0]);
  }

  /** Rounding `num / den` to the nearest integer, halves upward: JavaScript's
      Math.round on a quotient, and the digit choice of toFixed. */
  function RoundHalfUp(num: nat, den: nat): (r: nat)
    requires den > 0
    ensures 2 * r * den <= 2 * num + den < 2 * r * den + 2 * den
  {
    (2 * num + den) / (2 * den)
  }

  /** Number.prototype.toFixed(places) of `num / den` for a value that the
      double format holds exactly: the nearest multiple of 10^-places (halves
      upward), written with exactly `places` fraction digits. */
  function ToFixed(num: nat, den: nat, places: nat): (r: string)
    requires den > 0 && places >= 1
  {
    var n := RoundHalfUp(num * Pow(10, places), den);
    NatToString(n / Pow(10, places)) + "." + PaddedDigits(n, places)
  }

  /** `r` is digits, a point and `places` digits that together spell
      `value / 10^places`. */
  predicate ReadsAsFixed(r: string, places: nat, value: nat) {
    var k := |r| - places - 1;
    && 1 <= k < |r|
    && r[k] == '.'
    && AllDigits(r[..k]) && AllDigits(r[k + 1..])
    && DigitsValue(r[..k]) * Pow(10, places) + DigitsValue(r[k + 1..]) == value
  }

  /** Reading the digits of a toFixed rendering back, on both sides of the
      point, gives the rounded value scaled by 10^places. */
  lemma ToFixedReadBack(num: nat, den: nat, places: nat)
    requires den > 0 && places >= 1
    ensures ReadsAsFixed(ToFixed(num, den, places), places, RoundHalfUp(num * Pow(10, places), den))
  {
    var p := Pow(10, places);
    var n := RoundHalfUp(num * p, den);
    var whole := NatToString(n / p);
    var frac := PaddedDigits(n, places);
    assert ToFixed(num, den, places) == whole + "." + frac;
    assert DigitsValue(whole) * p + DigitsValue(frac) == n by {
      DivModSum(n, p);
    }
    FixedParts(whole, frac, places, n);
  }

  /** Digits, a point and `places` digits read back as the value they spell. */
  lemma FixedParts(whole: string, frac: string, places: nat, value: nat)
    requires |whole| >= 1 && AllDigits(whole) && AllDigits(frac) && |frac| == places
    requires DigitsValue(whole) * Pow(10, places) + DigitsValue(frac) == value
    ensures ReadsAsFixed(whole + "." + frac, places, value)
  {
    var r := whole + "." + frac;
    PointSlices(whole, frac);
    assert |r| - places - 1 == |whole|;
  }

  /** A number followed by a space and a unit splits back at that space. */
  lemma UnitSuffix(number: string, unit: string)
    ensures var r := number + " " + unit;
            var k := |r| - |unit| - 1;
            && k == |number| && r[k] == ' ' && r[..k] == number && r[k + 1..] == unit
  {
  }

  /** A character that is not a digit does not occur in a string of digits. */
  lemma DigitsExclude(s: string, c: char)
    requires AllDigits(s) && !IsDigit(c)
    ensures c !in s
  {
    assert forall j :: 0 <= j < |s| ==> s[j] != c;
  }

  lemma PointSlices(whole: string, frac: string)
    ensures var r := whole + "." + frac;
            r[..|whole|] == whole && r[|whole|] == '.' && r[|whole| + 1..] == frac
  {
  }

  lemma DivModSum(n: nat, p: nat)
    requires p > 0
    ensures (n / p) * p + n % p == n
  {
  }
}

=== FILE: desktop.dfy ===
/** The logic of the desktop front end (static/js/script.js): size formatting,
    the disk-usage badge, the breadcrumb and the offset/hasMore cursor. The DOM
    it draws into and the fetches it issues are left out; requests are values. */
module Desktop {
  import opened Base
  import opened Models
  import Listing

  // ---------------------------------------------------------------------------
  // formatSize
  // ---------------------------------------------------------------------------

  const Units: seq<string> := ["B", "KB", "MB", "GB", "TB"]

  function UnitFrom(bytes: nat, i: nat): (u: nat)
    requires i <= 4 && Pow(1024, i) <= bytes
    ensures i <= u <= 4 && Pow(1024, u) <= bytes
    ensures u < 4 ==> bytes < Pow(1024, u + 1)
    decreases 4 - i
  {
    if i == 4 || bytes < Pow(1024, i + 1) then i else UnitFrom(bytes, i + 1)
  }

  /** floor(log_1024(bytes)) clamped to the last unit (TB). */
  function UnitIndex(bytes: nat): (i: nat)
    requires bytes >= 1
    ensures i < |Units|
    ensures Pow(1024, i) <= bytes
    ensures i < 4 ==> bytes < Pow(1024, i + 1)
  {
    UnitFrom(bytes, 0)
  }

  /** formatSize as written. The conditional binds looser than `+`, so a scaled
      value below 10 is printed by toFixed(1) alone and the unit is lost. */
  function FormatSize(bytes: nat): string {
    if bytes == 0 then "0 B"
    else
      var i := UnitIndex(bytes);
      var scale := Pow(1024, i);
      if bytes < 10 * scale then ToFixed(bytes, scale, 1)
      else NatToString(RoundHalfUp(bytes, scale)) + " " + Units[i]
  }

  /** A toFixed rendering holds only digits and the point. */
  lemma ToFixedHasNoSpace(num: nat, den: nat, places: nat)
    requires den > 0 && places >= 1
    ensures ' ' !in ToFixed(num, den, places)
  {
    var r := ToFixed(num, den, places);
    ToFixedReadBack(num, den, places);
    var k := |r| - places - 1;
    forall j | 0 <= j < |r|
      ensures r[j] != ' '
    {
      if j < k {
        assert r[j] == r[..k][j];
      } else if j > k {
        assert r[j] == r[k + 1..][j - k - 1];
      }
    }
  }

  /** formatSize shows a unit exactly when the size is zero or its scaled value
      is at least 10. */
  lemma UnitShownIffScaledAtLeastTen(bytes: nat)
    ensures ' ' in FormatSize(bytes) <==> bytes == 0 || bytes >= 10 * Pow(1024, UnitIndex(bytes))
  {
    if bytes > 0 {
      var i := UnitIndex(bytes);
      var scale := Pow(1024, i);
      if bytes < 10 * scale {
        ToFixedHasNoSpace(bytes, scale, 1);
      } else {
        var digits := NatToString(RoundHalfUp(bytes, scale));
        assert FormatSize(bytes)[|digits|] == ' ';
      }
    } else {
      assert FormatSize(0)[1] == ' ';
    }
  }

  /** Where a unit is shown, the text reads back as a whole number of that unit
      within half a unit of the size. */
  lemma FormatSizeReadBack(bytes: nat)
    requires bytes >= 1 && bytes >= 10 * Pow(1024, UnitIndex(bytes))
    ensures var r := FormatSize(bytes);
            var i := UnitIndex(bytes);
            var scale := Pow(1024, i);
            var k := |r| - |Units[i]| - 1;
            && 1 <= k && r[k] == ' ' && r[k + 1..] == Units[i]
            && AllDigits(r[..k])
            && 2 * DigitsValue(r[..k]) * scale <= 2 * bytes + scale < 2 * DigitsValue(r[..k]) * scale + 2 * scale
  {
    var i := UnitIndex(bytes);
    var scale := Pow(1024, i);
    var v := RoundHalfUp(bytes, scale);
    var digits := NatToString(v);
    var r := FormatSize(bytes);
    assert r == digits + " " + Units[i];
    var k := |r| - |Units[i]| - 1;
    assert k == |digits|;
    assert r[..k] == digits;
    assert r[k + 1..] == Units[i];
  }

  /** 1.5 KiB comes out as "1.5", with no unit. */
  lemma FormatSizeDropsUnit()
    ensures FormatSize(1536) == "1.5"
  {
    assert Pow(1024, 1) == 1024;
    assert Pow(1024, 2) == 1024 * 1024;
    assert UnitFrom(1536, 1) == 1;
    assert UnitIndex(1536) == 1;
    assert Pow(10, 1) == 10;
    var n := RoundHalfUp(1536 * 10, 1024);
    assert n == 15;
    assert NatToString(1) == "1";
    assert PaddedDigits(1, 0) == "";
    assert PaddedDigits(15, 1) == "5";
    assert ToFixed(1536, 1024, 1) == "1" + "." + "5";
  }

  /** The number the evidently intended formatSize prints for a non-zero size:
      one decimal below ten units, a whole number of units otherwise. */
  function ScaledNumber(bytes: nat, scale: nat): (s: string)
    requires scale > 0
    ensures |s| >= 1 && ' ' !in s
  {
    if bytes < 10 * scale then
      ToFixedHasNoSpace(bytes, scale, 1);
      ToFixed(bytes, scale, 1)
    else
      var s := NatToString(RoundHalfUp(bytes, scale));
      DigitsExclude(s, ' ');
      s
  }

  /** formatSize as evidently intended: the unit follows both renderings. */
  function FormatSizeWithUnit(bytes: nat): string {
    if bytes == 0 then "0 B"
    else
      var i := UnitIndex(bytes);
      ScaledNumber(bytes, Pow(1024, i)) + " " + Units[i]
  }

  /** The corrected rendering always ends in a space and the unit of the
      size's magnitude, and the number before it has no space of its own. */
  lemma FormatSizeWithUnitAlwaysShowsUnit(bytes: nat)
    requires bytes >= 1
    ensures var r := FormatSizeWithUnit(bytes);
            var u := Units[UnitIndex(bytes)];
            var k := |r| - |u| - 1;
            && 1 <= k && r[k] == ' ' && r[k + 1..] == u && ' ' !in r[..k]
  {
    var i := UnitIndex(bytes);
    var number := ScaledNumber(bytes, Pow(1024, i));
    assert FormatSizeWithUnit(bytes) == number + " " + Units[i];
    assert ' ' !in number;
    UnitSuffix(number, Units[i]);
  }

  // ---------------------------------------------------------------------------
  // Disk usage badge (renderStorageOverview and renderDiskList)
  // ---------------------------------------------------------------------------

  datatype UsageStatus = Normal | Warning | Critical

  /** The progress-bar class the template picks for a status. */
  function BarClass(s: UsageStatus): string {
    match s
    case Critical => "error"
    case Warning => "warning"
    case Normal => ""
  }

  datatype UsageView = UsageView(percentage: nat, status: UsageStatus, barClass: string)

  lemma MulMono(a: nat, b: nat, t: nat)
    requires a <= b
    ensures a * t <= b * t
  {
  }

  /** A whole number rounded from x / t exceeds n exactly when x / t is at
      least n + 1/2. */
  lemma RoundedAbove(p: nat, x: nat, t: nat, n: nat)
    requires t > 0 && 2 * p * t <= x + t < 2 * p * t + 2 * t
    ensures p > n <==> x >= (2 * n + 1) * t
  {
    if p > n {
      MulMono(n + 1, p, 2 * t);
      assert (n + 1) * (2 * t) == 2 * n * t + 2 * t;
      assert p * (2 * t) == 2 * p * t;
    } else {
      MulMono(p, n, 2 * t);
      assert n * (2 * t) == 2 * n * t;
      assert p * (2 * t) == 2 * p * t;
    }
  }

  /** The percentage, the status text and the bar class of one disk. The
      percentage is the used share rounded to a whole number, 0 for an empty
      total; the thresholds are "more than 90" and "more than 70". */
  function Usage(used: nat, total: nat): (u: UsageView)
    ensures total == 0 ==> u.percentage == 0 && u.status == Normal
    ensures total > 0 ==> 2 * u.percentage * total <= 200 * used + total < 2 * u.percentage * total + 2 * total
    ensures u.status == Critical <==> total > 0 && 200 * used >= 181 * total
    ensures u.status == Warning <==> total > 0 && 141 * total <= 200 * used < 181 * total
    ensures u.barClass == BarClass(u.status)
  {
    var p := if total > 0 then RoundHalfUp(used * 100, total) else 0;
    var status := if p > 90 then Critical else if p > 70 then Warning else Normal;
    var barClass := if p > 90 then "error" else if p > 70 then "warning" else "";
    if total > 0 then
      RoundedAbove(p, 200 * used, total, 90);
      RoundedAbove(p, 200 * used, total, 70);
      UsageView(p, status, barClass)
    else UsageView(p, status, barClass)
  }

  // ---------------------------------------------------------------------------
  // Breadcrumb (updateBreadcrumb)
  // ---------------------------------------------------------------------------

  predicate NoDoubleSlash(s: string) {
    forall i :: 0 <= i < |s| - 1 ==> !(s[i] == '/' && s[i + 1] == '/')
  }

  function SlashFor(c: char): char {
    if c == '\\' then '/' else c
  }

  /** The first replace: every backslash becomes a slash. */
  function ReplaceBackslashes(p: string): (r: string)
    ensures |r| == |p| && '\\' !in r
    ensures forall i :: 0 <= i < |p| ==> r[i] == SlashFor(p[i])
  {
    if |p| == 0 then "" else [SlashFor(p[0])] + ReplaceBackslashes(p[1..])
  }

  /** The second replace: every run of slashes becomes one slash. */
  function CollapseSlashes(p: string): (r: string)
    ensures NoDoubleSlash(r)
    ensures |r| <= |p| && (|p| > 0 ==> |r| > 0 && r[0] == p[0])
    ensures forall c :: c in r ==> c in p
  {
    if |p| <= 1 then p
    else if p[0] == '/' && p[1] == '/' then CollapseSlashes(p[1..])
    else [p[0]] + CollapseSlashes(p[1..])
  }

  /** The normalised path the breadcrumb is built from; "" also stands for a
      missing path. */
  function Normalize(path: string): (p: string)
    ensures '\\' !in p && NoDoubleSlash(p)
    ensures p == "" <==> path == ""
    ensures |path| > 0 ==> p[0] == SlashFor(path[0])
  {
    CollapseSlashes(ReplaceBackslashes(path))
  }

  /** Replacing backslashes first makes a split on slashes a split on both. */
  lemma {:induction false} SplitReplaced(p: string)
    ensures Split(ReplaceBackslashes(p), {'/'}) == Split(p, {'/', '\\'})
    decreases |p|
  {
    if |p| > 0 {
      var r := ReplaceBackslashes(p);
      assert r[1..] == ReplaceBackslashes(p[1..]);
      SplitReplaced(p[1..]);
    }
  }

  /** A breadcrumb keeps the split parts that are neither empty nor ".". */
  const KeepPart: string -> bool := s => s != "" && s != "."

  function Segments(p: string): (parts: seq<string>)
    ensures forall i :: 0 <= i < |parts| ==> parts[i] != "" && parts[i] != "." && '/' !in parts[i]
  {
    var parts := Filter(Split(p, {'/'}), KeepPart);
    assert forall i :: 0 <= i < |parts| ==> parts[i] in Split(p, {'/'});
    parts
  }

  /** Collapsing a run of slashes keeps the first split part and the kept
      parts after it. */
  lemma {:induction false} CollapseKeepsParts(p: string)
    ensures Split(CollapseSlashes(p), {'/'})[0] == Split(p, {'/'})[0]
    ensures Filter(Split(CollapseSlashes(p), {'/'})[1..], KeepPart) == Filter(Split(p, {'/'})[1..], KeepPart)
    decreases |p|
  {
    if |p| > 1 {
      var q := CollapseSlashes(p[1..]);
      CollapseKeepsParts(p[1..]);
      var sp := Split(p[1..], {'/'});
      var sq := Split(q, {'/'});
      if p[0] == '/' && p[1] == '/' {
        assert sp == [""] + Split(p[2..], {'/'}) by {
          assert p[1..][1..] == p[2..];
        }
        assert Split(p, {'/'}) == [""] + sp;
        FilterAppend([sp[0]], sp[1..], KeepPart);
        assert [sp[0]] + sp[1..] == sp;
      } else {
        var c := CollapseSlashes(p);
        assert c == [p[0]] + q;
        assert c[1..] == q;
        if p[0] == '/' {
          assert Split(c, {'/'}) == [""] + sq;
          assert Split(p, {'/'}) == [""] + sp;
          FilterAppend([sq[0]], sq[1..], KeepPart);
          FilterAppend([sp[0]], sp[1..], KeepPart);
          assert [sq[0]] + sq[1..] == sq;
          assert [sp[0]] + sp[1..] == sp;
        } else {
          assert Split(c, {'/'}) == [[p[0]] + sq[0]] + sq[1..];
          assert Split(p, {'/'}) == [[p[0]] + sp[0]] + sp[1..];
        }
      }
    }
  }

  /** The breadcrumb segments of the normalised path are the non-empty, non-"."
      parts between slashes and backslashes of the raw one: collapsing runs of
      slashes loses nothing. */
  lemma SegmentsOfNormalized(path: string)
    ensures Segments(Normalize(path)) == Filter(Split(path, {'/', '\\'}), KeepPart)
  {
    var r := ReplaceBackslashes(path);
    SplitReplaced(path);
    CollapseKeepsParts(r);
    var a := Split(CollapseSlashes(r), {'/'});
    var b := Split(r, {'/'});
    FilterAppend([a[0]], a[1..], KeepPart);
    FilterAppend([b[0]], b[1..], KeepPart);
    assert [a[0]] + a[1..] == a;
    assert [b[0]] + b[1..] == b;
  }

  /** The path begins with a drive letter and a colon. */
  predicate StartsWithDrive(p: string) {
    |p| >= 2 && IsLetter(p[0]) && p[1] == ':'
  }

  /** A part that is a bare drive, with or without its slash. */
  predicate IsDriveRoot(part: string) {
    (|part| == 2 || (|part| == 3 && part[2] == '/')) && IsLetter(part[0]) && part[1] == ':'
  }

  /** The parts the crumbs are labelled with: on a drive path a first part
      ending in ':' gets a slash appended. */
  function CrumbParts(p: string): (parts: seq<string>)
    ensures forall i :: 0 <= i < |parts| ==> parts[i] != ""
    ensures |parts| == |Segments(p)|
  {
    var parts := Segments(p);
    if StartsWithDrive(p) && |parts| > 0 && parts[0][|parts[0]| - 1] == ':' then [parts[0] + "/"] + parts[1..]
    else parts
  }

  datatype Crumb = RootLink | AllSharedLabel | Segment(text: string, target: Option<string>)

  /** The forEach over the parts: `current` is the prefix built so far and a
      crumb's target is None when it is the last, non-clickable one. */
  function Walk(parts: seq<string>, i: nat, current: string): (crumbs: seq<Crumb>)
    requires i <= |parts|
    ensures |crumbs| == |parts| - i
    ensures forall k :: 0 <= k < |crumbs| ==> crumbs[k].Segment? && crumbs[k].text == parts[i + k]
                                              && (crumbs[k].target.None? <==> i + k == |parts| - 1)
    decreases |parts| - i
  {
    if i == |parts| then []
    else
      var part := parts[i];
      var next := Extend(current, part, i);
      var target := if i == |parts| - 1 then None else Some(next);
      [Segment(part, target)] + Walk(parts, i + 1, next)
  }

  /** The path after part i: a bare drive stands for itself, any other part
      is appended after a slash, or stands alone when nothing precedes it. */
  function Extend(current: string, part: string, i: nat): string {
    if i == 0 && IsDriveRoot(part) then part else if current != "" then current + "/" + part else part
  }

  /** updateBreadcrumb: a root link, then on an empty path the "all shared
      folders" label on the shared page, otherwise one crumb per part. */
  function Breadcrumb(path: string, onSharedPage: bool): (crumbs: seq<Crumb>)
    ensures |crumbs| >= 1 && crumbs[0] == RootLink
    ensures path == "" ==> crumbs == [RootLink] + (if onSharedPage then [AllSharedLabel] else [])
    ensures path != "" ==>
              var parts := CrumbParts(Normalize(path));
              && |crumbs| == 1 + |parts|
              && forall k :: 0 <= k < |parts| ==>
                   crumbs[k + 1].Segment? && crumbs[k + 1].text == parts[k]
                   && (crumbs[k + 1].target.None? <==> k == |parts| - 1)
  {
    var p := Normalize(path);
    if p == "" then [RootLink] + (if onSharedPage then [AllSharedLabel] else [])
    else [RootLink] + Walk(CrumbParts(p), 0, "")
  }

  lemma JoinStartsWithFirst(parts: seq<string>, sep: char)
    requires |parts| >= 1
    ensures |Join(parts, sep)| >= |parts[0]| && Join(parts, sep)[..|parts[0]|] == parts[0]
  {
  }

  /** Each step of the walk extends the path to the first i + 1 parts joined
      by slashes. */
  lemma ExtendIsJoin(parts: seq<string>, i: nat, current: string)
    requires i < |parts|
    requires forall j :: 0 <= j < |parts| ==> parts[j] != ""
    requires i == 0 ==> current == ""
    requires i > 0 ==> current == Join(parts[..i], '/')
    ensures Extend(current, parts[i], i) == Join(parts[..i + 1], '/')
  {
    if i == 0 {
      assert parts[..1] == [parts[0]];
    } else {
      JoinStartsWithFirst(parts[..i], '/');
      assert parts[..i][0] == parts[0];
      JoinSnoc(parts[..i], parts[i], '/');
      assert parts[..i] + [parts[i]] == parts[..i + 1];
    }
  }

  /** The first crumb of a walk from part i. */
  lemma WalkHead(parts: seq<string>, i: nat, current: string)
    requires i < |parts|
    ensures Walk(parts, i, current)[0].target
            == if i == |parts| - 1 then None else Some(Extend(current, parts[i], i))
  {
  }

  /** The later crumbs of a walk from part i are the walk from part i + 1. */
  lemma WalkShift(parts: seq<string>, i: nat, current: string, k: nat)
    requires i < k < |parts|
    ensures Walk(parts, i, current)[k - i] == Walk(parts, i + 1, Extend(current, parts[i], i))[k - i - 1]
  {
  }

  /** The walk's target for crumb k is the first k + 1 parts joined by slashes. */
  lemma {:induction false} WalkTargets(parts: seq<string>, i: nat, current: string, k: nat)
    requires i <= k < |parts|
    requires forall j :: 0 <= j < |parts| ==> parts[j] != ""
    requires i == 0 ==> current == ""
    requires i > 0 ==> current == Join(parts[..i], '/')
    ensures Walk(parts, i, current)[k - i].target
            == if k == |parts| - 1 then None else Some(Join(parts[..k + 1], '/'))
    decreases k - i
  {
    var next := Extend(current, parts[i], i);
    ExtendIsJoin(parts, i, current);
    if k == i {
      WalkHead(parts, i, current);
    } else {
      WalkTargets(parts, i + 1, next, k);
      WalkShift(parts, i, current, k);
    }
  }

  /** Every clickable crumb loads the first parts up to it, joined by slashes. */
  lemma CrumbTargets(path: string, onSharedPage: bool, k: nat)
    requires path != "" && k < |CrumbParts(Normalize(path))| - 1
    ensures Breadcrumb(path, onSharedPage)[k + 1].target
            == Some(Join(CrumbParts(Normalize(path))[..k + 1], '/'))
  {
    var parts := CrumbParts(Normalize(path));
    var walk := Walk(parts, 0, "");
    assert walk[k].target == Some(Join(parts[..k + 1], '/')) by {
      WalkTargets(parts, 0, "", k);
    }
    assert Breadcrumb(path, onSharedPage)[k + 1] == walk[k] by {
      BreadcrumbIsWalk(path, onSharedPage);
    }
  }

  lemma BreadcrumbIsWalk(path: string, onSharedPage: bool)
    requires path != ""
    ensures forall k :: 0 <= k < |CrumbParts(Normalize(path))| ==>
              Breadcrumb(path, onSharedPage)[k + 1] == Walk(CrumbParts(Normalize(path)), 0, "")[k]
  {
  }

  /** As written, a crumb of an absolute Unix path loads a relative path: the
      leading slash is lost, so the server answers 400. */
  lemma UnixTargetsAreRelative(path: string, onSharedPage: bool, k: nat)
    requires |path| >= 1 && path[0] == '/'
    requires k < |CrumbParts(Normalize(path))| - 1
    ensures var t := Breadcrumb(path, onSharedPage)[k + 1].target;
            t.Some? && |t.value| >= 1 && t.value[0] != '/'
  {
    var p := Normalize(path);
    var parts := CrumbParts(p);
    assert !StartsWithDrive(p);
    assert parts == Segments(p);
    CrumbTargets(path, onSharedPage, k);
    JoinStartsWithFirst(parts[..k + 1], '/');
    assert parts[..k + 1][0] == parts[0];
    assert parts[0][0] in parts[0];
  }

  /** On a drive path whose first segment is a bare drive, that segment is
      labelled with a slash appended. */
  lemma DriveCrumbParts(p: string)
    requires StartsWithDrive(p) && |Segments(p)| >= 1 && Segments(p)[0][|Segments(p)[0]| - 1] == ':'
    ensures CrumbParts(p) == [Segments(p)[0] + "/"] + Segments(p)[1..]
  {
  }

  lemma JoinPair(a: string, b: string, sep: char)
    ensures Join([a, b], sep) == a + [sep] + b
  {
    assert [a, b][1..] == [b];
  }

  /** The first two crumb labels of such a drive path, joined by a slash. */
  lemma DriveJoin(p: string)
    requires StartsWithDrive(p) && |Segments(p)| >= 2 && Segments(p)[0][|Segments(p)[0]| - 1] == ':'
    ensures Join(CrumbParts(p)[..2], '/') == Segments(p)[0] + "//" + Segments(p)[1]
  {
    var segs := Segments(p);
    DriveCrumbParts(p);
    assert CrumbParts(p)[..2] == [segs[0] + "/", segs[1]];
    JoinPair(segs[0] + "/", segs[1], '/');
    assert (segs[0] + "/") + ['/'] + segs[1] == segs[0] + "//" + segs[1];
  }

  /** As written, on a drive path whose first part is a bare drive, the second
      crumb loads the drive followed by two slashes. */
  lemma DriveTargetDoublesSlash(path: string, onSharedPage: bool)
    requires path != ""
    requires var p := Normalize(path);
             StartsWithDrive(p) && |Segments(p)| >= 3 && Segments(p)[0][|Segments(p)[0]| - 1] == ':'
    ensures var segs := Segments(Normalize(path));
            Breadcrumb(path, onSharedPage)[2].target == Some(segs[0] + "//" + segs[1])
  {
    CrumbTargets(path, onSharedPage, 1);
    DriveJoin(Normalize(path));
  }

  /** The target crumb k evidently should load: the path of the first k + 1
      segments, absolute like the path it came from. */
  function IntendedTarget(p: string, k: nat): string
    requires k < |Segments(p)|
  {
    var parts := Segments(p);
    if StartsWithDrive(p) then
      if k == 0 && parts[0][|parts[0]| - 1] == ':' then parts[0] + "/" else Join(parts[..k + 1], '/')
    else "/" + Join(parts[..k + 1], '/')
  }

  lemma {:induction false} FilterAllKept(s: seq<string>)
    requires forall i :: 0 <= i < |s| ==> KeepPart(s[i])
    ensures Filter(s, KeepPart) == s
    decreases |s|
  {
    if |s| > 0 {
      FilterAllKept(s[1..]);
      assert [s[0]] + s[1..] == s;
    }
  }

  /** Joining separator-free, non-empty parts never puts two slashes together. */
  lemma {:induction false} JoinHasNoDoubleSlash(parts: seq<string>)
    requires |parts| >= 1
    requires forall i :: 0 <= i < |parts| ==> parts[i] != "" && '/' !in parts[i]
    ensures NoDoubleSlash(Join(parts, '/'))
    decreases |parts|
  {
    if |parts| > 1 {
      var rest := Join(parts[1..], '/');
      JoinHasNoDoubleSlash(parts[1..]);
      JoinStartsWithFirst(parts[1..], '/');
      var j := Join(parts, '/');
      var h := parts[0];
      assert j == h + "/" + rest;
      forall i | 0 <= i < |j| - 1
        ensures !(j[i] == '/' && j[i + 1] == '/')
      {
        if i < |h| - 1 {
          assert j[i] == h[i];
        } else if i == |h| - 1 {
          assert j[i] == h[i];
        } else if i == |h| {
          assert j[i + 1] == rest[0] == parts[1][0];
          assert parts[1][0] in parts[1];
        } else {
          assert j[i] == rest[i - |h| - 1] && j[i + 1] == rest[i - |h|];
        }
      }
    }
  }

  /** Segments of a drive root written with its slash. */
  lemma DriveRootSegments(h: string)
    requires KeepPart(h) && '/' !in h
    ensures Segments(h + "/") == [h] && NoDoubleSlash(h + "/")
  {
    var t := h + "/";
    assert t == h + ['/'] + "";
    SplitAtSeparator(h, '/', "", {'/'});
    SplitWithoutSeparator(h, {'/'});
    assert Split(t, {'/'}) == [h, ""];
    assert Filter([h, ""], KeepPart) == [h];
    assert forall i :: 0 <= i < |t| - 1 ==> t[i] == h[i];
    assert h[|h| - 1] != '/' by { assert h[|h| - 1] in h; }
  }

  /** Segments of kept parts joined by slashes. */
  lemma JoinedSegments(parts: seq<string>)
    requires |parts| >= 1
    requires forall i :: 0 <= i < |parts| ==> KeepPart(parts[i]) && '/' !in parts[i]
    ensures Segments(Join(parts, '/')) == parts && NoDoubleSlash(Join(parts, '/'))
  {
    SplitJoin(parts, '/');
    FilterAllKept(parts);
    JoinHasNoDoubleSlash(parts);
  }

  /** A slash in front of a string that starts with something else adds no
      doubled slash. */
  lemma SlashPrefixKeepsSingle(j: string)
    requires |j| >= 1 && j[0] != '/' && NoDoubleSlash(j)
    ensures NoDoubleSlash("/" + j)
  {
    var t := "/" + j;
    forall i | 0 <= i < |t| - 1
      ensures !(t[i] == '/' && t[i + 1] == '/')
    {
      if i > 0 {
        assert t[i] == j[i - 1] && t[i + 1] == j[i];
      }
    }
  }

  /** A leading slash adds no segment. */
  lemma SegmentsAfterSlash(j: string)
    ensures Segments("/" + j) == Segments(j)
  {
    assert "/" + j == [] + ['/'] + j;
    SplitAtSeparator("", '/', j, {'/'});
    var sj := Split(j, {'/'});
    assert Split("/" + j, {'/'}) == [""] + sj;
    assert ([""] + sj)[1..] == sj;
  }

  /** Joining parts whose first one is non-empty and slash-free does not
      start with a slash. */
  lemma JoinFirstNotSlash(parts: seq<string>)
    requires |parts| >= 1 && parts[0] != "" && '/' !in parts[0]
    ensures |Join(parts, '/')| >= 1 && Join(parts, '/')[0] != '/'
  {
    JoinStartsWithFirst(parts, '/');
    assert Join(parts, '/')[0] == parts[0][0];
    assert parts[0][0] in parts[0];
  }

  /** Segments of kept parts joined by slashes behind a leading slash. */
  lemma RootedSegments(parts: seq<string>)
    requires |parts| >= 1
    requires forall i :: 0 <= i < |parts| ==> KeepPart(parts[i]) && '/' !in parts[i]
    ensures var t := "/" + Join(parts, '/');
            Segments(t) == parts && NoDoubleSlash(t) && t[0] == '/'
  {
    var j := Join(parts, '/');
    JoinedSegments(parts);
    SegmentsAfterSlash(j);
    JoinFirstNotSlash(parts);
    SlashPrefixKeepsSingle(j);
  }

  /** The intended target names exactly the first k + 1 segments, has no doubled
      slash, and is absolute on a Unix path. */
  lemma IntendedTargetNamesPrefix(p: string, k: nat)
    requires k < |Segments(p)|
    ensures var t := IntendedTarget(p, k);
            && Segments(t) == Segments(p)[..k + 1]
            && NoDoubleSlash(t)
            && (!StartsWithDrive(p) ==> t[0] == '/')
  {
    var parts := Segments(p);
    var prefix := parts[..k + 1];
    assert forall i :: 0 <= i < |prefix| ==> prefix[i] == parts[i];
    if StartsWithDrive(p) && k == 0 && parts[0][|parts[0]| - 1] == ':' {
      DriveRootSegments(parts[0]);
      assert prefix == [parts[0]];
    } else if StartsWithDrive(p) {
      JoinedSegments(prefix);
    } else {
      RootedSegments(prefix);
    }
  }

  // ---------------------------------------------------------------------------
  // Pager cursor (loadDirectory, loadSharedDisks, window.onscroll)
  // ---------------------------------------------------------------------------

  const Limit: nat := 50

  /** The page globals and the rows of the file table. */
  datatype Cursor = Cursor(currentPath: string, offset: nat, hasMore: bool, rows: seq<DirEntry>)

  const Initial: Cursor := Cursor("", 0, true, [])

  /** The fetches the page issues: /directory with offset and limit, and
      /api/shared with the path alone. */
  datatype Request = DirectoryFetch(path: string, offset: nat, limit: nat) | SharedFetch(path: string)

  datatype Move = Move(cursor: Cursor, request: Request)

  /** loadDirectory(path): the path is remembered and the page at the current
      offset is requested; nothing resets the offset. */
  function LoadDirectory(c: Cursor, path: string): (m: Move)
    ensures m.cursor.offset == c.offset && m.cursor.hasMore == c.hasMore && m.cursor.rows == c.rows
    ensures m.cursor.currentPath == path
    ensures m.request == DirectoryFetch(path, c.offset, Limit)
  {
    Move(c.(currentPath := path), DirectoryFetch(path, c.offset, Limit))
  }

  /** loadSharedDisks(path): the shared listing is fetched without a cursor. */
  function LoadShared(c: Cursor, path: string): (m: Move)
    ensures m.cursor == c.(currentPath := path) && m.request == SharedFetch(path)
  {
    Move(c.(currentPath := path), SharedFetch(path))
  }

  /** The view's loader: the shared page reloads through loadSharedDisks. */
  function Reload(c: Cursor, path: string, onSharedPage: bool): Move {
    if onSharedPage then LoadShared(c, path) else LoadDirectory(c, path)
  }

  /** A /directory reply arrives. At the root the disk table is drawn instead
      of the file rows; otherwise the rows are replaced, or appended to when
      the offset is past the first page. */
  function DirectoryArrived(c: Cursor, page: Listing.Page): (c': Cursor)
    ensures c'.currentPath == c.currentPath && c'.offset == c.offset
    ensures c'.hasMore <==> c.offset + Limit < page.total
    ensures c.currentPath == "" ==> c'.rows == c.rows
    ensures c.currentPath != "" && c.offset == 0 ==> c'.rows == page.entries
    ensures c.currentPath != "" && c.offset > 0 ==> c'.rows == c.rows + page.entries
  {
    var rows := if c.currentPath == "" then c.rows
                else if c.offset > 0 then c.rows + page.entries
                else page.entries;
    c.(rows := rows, hasMore := c.offset + Limit < page.total)
  }

  /** An /api/shared reply arrives: the rows are replaced and paging stops. */
  function SharedArrived(c: Cursor, entries: seq<DirEntry>): (c': Cursor)
    ensures !c'.hasMore
    ensures c'.rows == entries && c'.offset == c.offset && c'.currentPath == c.currentPath
  {
    c.(rows := if |entries| == 0 then [] else entries, hasMore := false)
  }

  /** window.onscroll: near the bottom with more to come, the offset grows by
      the limit and the current path is reloaded; otherwise nothing happens. */
  function OnScroll(c: Cursor, nearBottom: bool, onSharedPage: bool): (m: Option<Move>)
    ensures m.Some? <==> c.hasMore && nearBottom
    ensures m.Some? ==> m.value.cursor.offset == c.offset + Limit && m.value.cursor.currentPath == c.currentPath
  {
    if c.hasMore && nearBottom then Some(Reload(c.(offset := c.offset + Limit), c.currentPath, onSharedPage))
    else None
  }

  /** What the page sees, one event at a time. */
  datatype Event =
    | Open(path: string, onSharedPage: bool)
    | DirectoryReply(page: Listing.Page)
    | SharedReply(entries: seq<DirEntry>)
    | Scroll(nearBottom: bool, onSharedPage: bool)

  function Step(c: Cursor, e: Event): Cursor {
    match e
    case Open(path, onSharedPage) => Reload(c, path, onSharedPage).cursor
    case DirectoryReply(page) => DirectoryArrived(c, page)
    case SharedReply(entries) => SharedArrived(c, entries)
    case Scroll(nearBottom, onSharedPage) =>
      match OnScroll(c, nearBottom, onSharedPage)
      case Some(m) => m.cursor
      case None => c
  }

  function Run(c: Cursor, events: seq<Event>): Cursor
    decreases |events|
  {
    if |events| == 0 then c else Run(Step(c, events[0]), events[1..])
  }

  /** The offset only ever grows, by whole pages: it stays a multiple of the
      limit and is never reset. */
  lemma {:induction false} OffsetOnlyGrowsByPages(c: Cursor, events: seq<Event>)
    requires c.offset % Limit == 0
    ensures Run(c, events).offset % Limit == 0 && Run(c, events).offset >= c.offset
    decreases |events|
  {
    if |events| > 0 {
      var next := Step(c, events[0]);
      assert next.offset == c.offset || next.offset == c.offset + Limit;
      OffsetOnlyGrowsByPages(next, events[1..]);
    }
  }

  /** Against the server's window, hasMore says exactly that rows lie beyond
      the page just received. */
  lemma HasMoreMatchesWindow(c: Cursor, all: seq<DirEntry>)
    ensures var page := Listing.Window(all, c.offset, Limit);
            DirectoryArrived(c, page).hasMore <==> c.offset + |page.entries| < |all|
  {
  }

  /** Scrolling through one folder from its first page shows a growing prefix
      of the server's sorted list. */
  lemma ScrollShowsPrefix(c: Cursor, all: seq<DirEntry>)
    requires c.currentPath != "" && c.offset <= |all|
    requires c.offset > 0 ==> c.rows == all[..c.offset]
    ensures DirectoryArrived(c, Listing.Window(all, c.offset, Limit)).rows == all[..Listing.Min(c.offset + Limit, |all|)]
  {
    var page := Listing.Window(all, c.offset, Limit);
    if c.offset < |all| {
      if c.offset > 0 {
        assert all[..c.offset] + all[c.offset..Listing.Min(c.offset + Limit, |all|)] == all[..Listing.Min(c.offset + Limit, |all|)];
      } else {
        assert all[0..Listing.Min(Limit, |all|)] == all[..Listing.Min(Limit, |all|)];
      }
    } else if c.offset > 0 {
      assert all[..c.offset] == all[..Listing.Min(c.offset + Limit, |all|)];
    }
  }

  /** As written, opening another folder after a scroll asks for it at the old
      offset and appends that window to the old folder's rows: the new folder's
      first page never appears. */
  lemma ReopenKeepsStaleOffset(c: Cursor, path: string, all: seq<DirEntry>)
    requires path != "" && c.offset >= Limit
    ensures var m := LoadDirectory(c, path);
            var page := Listing.Window(all, c.offset, Limit);
            && m.request.offset == c.offset
            && DirectoryArrived(m.cursor, page).rows == c.rows + page.entries
            && page.entries == all[Listing.Min(c.offset, |all|)..Listing.Min(c.offset + Limit, |all|)]
  {
  }

  /** Opening a folder as evidently intended: from its first page. */
  function OpenFresh(c: Cursor, path: string): (m: Move)
    ensures m.request == DirectoryFetch(path, 0, Limit)
  {
    LoadDirectory(c.(offset := 0, hasMore := true), path)
  }

  /** The fresh open shows exactly the folder's first window, whatever was
      shown before. */
  lemma OpenFreshShowsFirstPage(c: Cursor, path: string, all: seq<DirEntry>)
    requires path != ""
    ensures var m := OpenFresh(c, path);
            DirectoryArrived(m.cursor, Listing.Window(all, 0, Limit)).rows == all[..Listing.Min(Limit, |all|)]
  {
    var m := OpenFresh(c, path);
    ScrollShowsPrefix(m.cursor, all);
  }
}

=== FILE: fileserve.dfy ===
/** GetFile in handlers/disk.go (the /file route): path decoding, the shared
    scope check, thumbnails, and the single byte range of a `Range` header.
    The range logic follows section 2.1 of RFC 7233 (byte ranges), section 4.2
    (Content-Range) and section 4.4 (416) in part: suffix ranges and lists of
    ranges are refused with 416. */
module FileServe {
  import opened Base
  import opened Models
  import Listing

  /** strings.TrimPrefix. */
  function TrimPrefix(s: string, p: string): (r: string)
    ensures HasPrefix(s, p) ==> s == p + r
    ensures !HasPrefix(s, p) ==> r == s
  {
    if HasPrefix(s, p) then s[|p|..] else s
  }

  /** What the Range header asks of the file. */
  datatype RangeOutcome = WholeBody | PartialRange(start: nat, end: nat) | NotSatisfiable

  /** The `Range` handling: strip "bytes=", split at '-', demand exactly two
      parts and a readable start; an absent, unreadable or too large end means
      the last byte; a start past the end or past the file is refused. */
  function ParseRange(header: string, fileSize: int): (r: RangeOutcome)
    ensures header == "" <==> r.WholeBody?
    ensures r.PartialRange? ==> 0 <= r.start <= r.end < fileSize
    ensures fileSize <= 0 && header != "" ==> r.NotSatisfiable?
  {
    if header == "" then WholeBody
    else
      var parts := Split(TrimPrefix(header, "bytes="), {'-'});
      if |parts| != 2 then NotSatisfiable
      else
        match ParseInt64(parts[0])
        case None => NotSatisfiable
        case Some(start) =>
          var end :=
            if parts[1] == "" then fileSize - 1
            else match ParseInt64(parts[1])
              case None => fileSize - 1
              case Some(e) => if e >= fileSize then fileSize - 1 else e;
          if start > end || start >= fileSize then NotSatisfiable
          else PartialRange(start, end)
  }

  /** The Content-Range value "bytes first-last/length". */
  function ContentRange(start: nat, end: nat, size: nat): string {
    "bytes " + NatToString(start) + "-" + NatToString(end) + "/" + NatToString(size)
  }

  // ---------------------------------------------------------------------------
  // Properties of the Range parser
  // ---------------------------------------------------------------------------

  lemma SplitTwoNumbers(a: nat, b: string)
    requires '-' !in b
    ensures Split(NatToString(a) + "-" + b, {'-'}) == [NatToString(a), b]
  {
    var A := NatToString(a);
    DigitsHaveNoDash(a);
    SplitAtSeparator(A, '-', b, {'-'});
    SplitWithoutSeparator(b, {'-'});
    assert A + "-" + b == A + ['-'] + b;
  }

  /** The header "bytes=a-b" splits into the digits of a and the text b. */
  lemma HeaderParts(a: nat, b: string)
    requires '-' !in b
    ensures Split(TrimPrefix("bytes=" + NatToString(a) + "-" + b, "bytes="), {'-'}) == [NatToString(a), b]
  {
    var A := NatToString(a);
    var h := "bytes=" + A + "-" + b;
    assert h[..6] == "bytes=";
    assert TrimPrefix(h, "bytes=") == A + "-" + b;
    SplitTwoNumbers(a, b);
  }

  /** The header "bytes=a-b" splits into two parts that read back as a and b. */
  lemma TwoNumberParts(a: nat, b: nat)
    requires a <= Int64Max && b <= Int64Max
    ensures var parts := Split(TrimPrefix("bytes=" + NatToString(a) + "-" + NatToString(b), "bytes="), {'-'});
            && |parts| == 2 && parts[1] != ""
            && ParseInt64(parts[0]) == Some(a as int) && ParseInt64(parts[1]) == Some(b as int)
  {
    var parts := Split(TrimPrefix("bytes=" + NatToString(a) + "-" + NatToString(b), "bytes="), {'-'});
    assert parts == [NatToString(a), NatToString(b)] by {
      DigitsHaveNoDash(b);
      HeaderParts(a, NatToString(b));
    }
    ParseFormatRoundTrip(a);
    ParseFormatRoundTrip(b);
  }

  lemma DigitsHaveNoDash(n: nat)
    ensures '-' !in NatToString(n)
  {
    var s := NatToString(n);
    assert forall i :: 0 <= i < |s| ==> IsDigit(s[i]) && s[i] != '-';
  }

  /** A request for the bytes a..b of a file longer than b is answered with
      exactly those bytes: the header the client writes reads back. */
  lemma RangeRoundTrip(a: nat, b: nat, size: int)
    requires a <= b < size <= Int64Max
    ensures ParseRange("bytes=" + NatToString(a) + "-" + NatToString(b), size) == PartialRange(a, b)
  {
    TwoNumberParts(a, b);
  }

  /** An open-ended range "a-" runs to the last byte. */
  lemma OpenEndedRange(a: nat, size: int)
    requires a < size <= Int64Max
    ensures ParseRange("bytes=" + NatToString(a) + "-", size) == PartialRange(a, size - 1)
  {
    HeaderParts(a, "");
    assert "bytes=" + NatToString(a) + "-" + "" == "bytes=" + NatToString(a) + "-";
    ParseFormatRoundTrip(a);
  }

  /** A last position at or beyond the end of the file is clamped to the last byte. */
  lemma LastPositionClamped(a: nat, b: nat, size: int)
    requires a < size <= b <= Int64Max
    ensures ParseRange("bytes=" + NatToString(a) + "-" + NatToString(b), size) == PartialRange(a, size - 1)
  {
    TwoNumberParts(a, b);
  }

  /** A suffix range "-n" (the last n bytes) is refused: its start is empty. */
  lemma SuffixRangeRefused(n: nat, size: int)
    ensures ParseRange("bytes=-" + NatToString(n), size) == NotSatisfiable
  {
    var N := NatToString(n);
    var h := "bytes=-" + N;
    assert h[..6] == "bytes=";
    assert TrimPrefix(h, "bytes=") == "" + ['-'] + N;
    DigitsHaveNoDash(n);
    SplitAtSeparator("", '-', N, {'-'});
    SplitWithoutSeparator(N, {'-'});
    assert Split(TrimPrefix(h, "bytes="), {'-'})[0] == "";
  }

  /** A header whose text after "bytes=" does not hold exactly one dash is
      refused: a list of ranges has a dash in each range, and a value with no
      dash names no range. */
  lemma RangeListRefused(header: string, size: int)
    requires header != ""
    requires multiset(TrimPrefix(header, "bytes="))['-'] != 1
    ensures ParseRange(header, size) == NotSatisfiable
  {
    SplitCount(TrimPrefix(header, "bytes="), '-');
  }

  /** The two ranges "0-1,5-6" are refused with 416. */
  lemma TwoRangesRefused(size: int)
    ensures ParseRange("bytes=0-1,5-6", size) == NotSatisfiable
  {
    var h := "bytes=0-1,5-6";
    assert h[..6] == "bytes=";
    var t := TrimPrefix(h, "bytes=");
    assert t == "0-1,5-6";
    assert multiset(t)['-'] == 2;
    RangeListRefused(h, size);
  }

  /** A start beyond the last position is refused rather than clamped. */
  lemma InvertedRangeRefused(a: nat, b: nat, size: int)
    requires b < a <= Int64Max && b < size
    ensures ParseRange("bytes=" + NatToString(a) + "-" + NatToString(b), size) == NotSatisfiable
  {
    TwoNumberParts(a, b);
  }

  /** A start at or past the end of the file is refused, whatever follows
      the dash: `bytes=10-20` and `bytes=10-` on a 10-byte file alike. */
  lemma StartPastFileRefused(a: nat, b: string, size: int)
    requires size <= a <= Int64Max && '-' !in b
    ensures ParseRange("bytes=" + NatToString(a) + "-" + b, size) == NotSatisfiable
  {
    HeaderParts(a, b);
    ParseFormatRoundTrip(a);
  }

  /** A start that strconv.ParseInt does not accept (not a number, or beyond
      64 bits) is refused. */
  lemma UnreadableStartRefused(header: string, size: int)
    requires header != ""
    requires var parts := Split(TrimPrefix(header, "bytes="), {'-'});
             |parts| == 2 && ParseInt64(parts[0]).None?
    ensures ParseRange(header, size) == NotSatisfiable
  {
  }

  /** An end that strconv.ParseInt does not accept (not a number, or beyond
      64 bits) is not an error: the range runs to the last byte. */
  lemma UnreadableEndClamped(a: nat, b: string, size: int)
    requires a < size && a <= Int64Max
    requires '-' !in b && b != "" && ParseInt64(b).None?
    ensures ParseRange("bytes=" + NatToString(a) + "-" + b, size) == PartialRange(a, size - 1)
  {
    HeaderParts(a, b);
    ParseFormatRoundTrip(a);
  }

  /** A number past the 64-bit range is such an end. */
  lemma EndBeyondInt64Clamped(a: nat, e: nat, size: int)
    requires a < size && a <= Int64Max && e > Int64Max
    ensures ParseRange("bytes=" + NatToString(a) + "-" + NatToString(e), size) == PartialRange(a, size - 1)
  {
    var b := NatToString(e);
    DigitsHaveNoDash(e);
    assert ParseInt64(b).None? by {
      assert IsDigit(b[0]);
    }
    UnreadableEndClamped(a, b, size);
  }

  // ---------------------------------------------------------------------------
  // The handler
  // ---------------------------------------------------------------------------

  /** The image types imaging can thumbnail (no BMP, unlike the listing). */
  const ThumbnailTypes: seq<string> := ["image/jpeg", "image/png", "image/webp", "image/gif"]

  datatype FileQuery = FileQuery(path: string, thumbnail: string, range: string)

  datatype FileReply =
    | JsonError(status: nat, error: string)
    | ThumbnailJpeg
    | FullBody(length: int, contentType: string)
    | PartialBody(contentLength: nat, contentRange: string, contentType: string, start: nat)
    | RangeNotSatisfiable

  /** GET /file. */
  function GetFile(roots: seq<string>, host: Host, q: FileQuery): (r: FileReply)
    ensures r == JsonError(400, "Path is required") <==> q.path == ""
    ensures r == JsonError(400, "Invalid path") <==> q.path != "" && host.queryUnescape(q.path).None?
    ensures r.JsonError? && r.status == 403 <==>
              q.path != "" && host.queryUnescape(q.path).Some?
              && !Listing.InOpenScope(host.clean(host.queryUnescape(q.path).value), roots, host.sep)
    ensures r.FullBody? ==>
              && q.range == "" && q.path != "" && host.queryUnescape(q.path).Some?
              && host.openFile(host.clean(host.queryUnescape(q.path).value)) == Opened(r.length)
    ensures r.PartialBody? ==>
              && q.range != "" && q.path != "" && host.queryUnescape(q.path).Some?
              && host.openFile(host.clean(host.queryUnescape(q.path).value)).Opened?
              && var size := host.openFile(host.clean(host.queryUnescape(q.path).value)).size;
                 1 <= r.contentLength && r.start + r.contentLength <= size
                 && r.contentRange == ContentRange(r.start, r.start + r.contentLength - 1, size)
  {
    if q.path == "" then JsonError(400, "Path is required")
    else match host.queryUnescape(q.path)
      case None => JsonError(400, "Invalid path")
      case Some(decoded) =>
        var cleanPath := host.clean(decoded);
        if !Listing.InOpenScope(cleanPath, roots, host.sep) then JsonError(403, "Access denied")
        else match host.openFile(cleanPath)
          case OpenError => JsonError(500, "Unable to open file")
          case StatError => JsonError(500, "Unable to get file info")
          case Opened(size) => ServeOpened(cleanPath, size, host, q)
  }

  /** The rest of GET /file once the file is open and its size known: MIME
      detection, then a thumbnail or the body, whole or one range of it. */
  function ServeOpened(cleanPath: string, size: int, host: Host, q: FileQuery): (r: FileReply)
    ensures r.JsonError? ==> r.status == 415 || r.status == 500
    ensures r.FullBody? ==> q.range == "" && r.length == size
    ensures r.PartialBody? ==>
              && q.range != ""
              && 1 <= r.contentLength && r.start + r.contentLength <= size
              && r.contentRange == ContentRange(r.start, r.start + r.contentLength - 1, size)
  {
    match host.detectMime(cleanPath)
    case None => JsonError(500, "Unable to detect mime type")
    case Some(m) =>
      if q.thumbnail == "true" then ThumbnailReply(cleanPath, host, m)
      else ServeBody(cleanPath, size, host, q.range, m.name)
  }

  /** The answer to `thumbnail=true`: a JPEG for the image types a thumbnail
      is made of, 415 for every other type. */
  function ThumbnailReply(cleanPath: string, host: Host, m: MimeInfo): (r: FileReply)
    ensures r.JsonError? ==> r.status == 415 || r.status == 500
    ensures r.ThumbnailJpeg? || r.JsonError?
    ensures r.JsonError? && r.status == 415 <==> !Listing.IsAnyOf(m, ThumbnailTypes)
  {
    if Listing.IsAnyOf(m, ThumbnailTypes) then
      match host.thumbnail(cleanPath)
      case ImageOpenFailed => JsonError(500, "Unable to process image")
      case EncodeFailed => JsonError(500, "Unable to encode thumbnail")
      case ThumbWritten => ThumbnailJpeg
    else JsonError(415, "Thumbnail generation not supported for this format")
  }

  /** A reply answers the parsed range `p`: 416 exactly when the parser
      refused the header, a 500 exactly when the seek to the parsed start
      fails, and a partial body covering exactly the parsed bytes. */
  predicate AnswersRange(r: FileReply, p: RangeOutcome, cleanPath: string, host: Host) {
    && (r == RangeNotSatisfiable <==> p.NotSatisfiable?)
    && (r.JsonError? <==> p.PartialRange? && !host.seekOk(cleanPath, p.start))
    && (r.PartialBody? ==> p.PartialRange? && r.start == p.start && r.start + r.contentLength - 1 == p.end)
  }

  /** The body of the file, whole or the one range the header asks for. */
  function ServeBody(cleanPath: string, size: int, host: Host, range: string, contentType: string): (r: FileReply)
    ensures r.JsonError? ==> r.status == 500
    ensures r.FullBody? <==> range == ""
    ensures r.FullBody? ==> r.length == size
    ensures r.PartialBody? ==>
              && range != ""
              && 1 <= r.contentLength && r.start + r.contentLength <= size
              && r.contentRange == ContentRange(r.start, r.start + r.contentLength - 1, size)
    ensures AnswersRange(r, ParseRange(range, size), cleanPath, host)
  {
    match ParseRange(range, size)
    case WholeBody => FullBody(size, contentType)
    case NotSatisfiable => RangeNotSatisfiable
    case PartialRange(start, end) =>
      if !host.seekOk(cleanPath, start) then JsonError(500, "Unable to seek file")
      else PartialBody(end - start + 1, ContentRange(start, end, size), contentType, start)
  }

  /** Without `thumbnail=true`, an opened file whose type is detected is
      answered by the parsed range: 416 exactly when the parser refuses the
      header, and otherwise the whole body or the parsed bytes, unless the
      seek to the first of them fails. */
  lemma FileBodyFollowsRange(roots: seq<string>, host: Host, q: FileQuery, decoded: string, size: int)
    requires q.path != "" && q.thumbnail != "true"
    requires host.queryUnescape(q.path) == Some(decoded)
    requires Listing.InOpenScope(host.clean(decoded), roots, host.sep)
    requires host.openFile(host.clean(decoded)) == Opened(size)
    requires host.detectMime(host.clean(decoded)).Some?
    ensures var r := GetFile(roots, host, q);
            var p := ParseRange(q.range, size);
            && (r == RangeNotSatisfiable <==> p.NotSatisfiable?)
            && (r.FullBody? <==> p.WholeBody?)
            && (r.FullBody? ==> r.length == size)
            && (r.JsonError? <==> p.PartialRange? && !host.seekOk(host.clean(decoded), p.start))
            && (r.PartialBody? <==> p.PartialRange? && host.seekOk(host.clean(decoded), p.start))
            && (r.PartialBody? ==> r.start == p.start && r.start + r.contentLength - 1 == p.end)
  {
    var m := host.detectMime(host.clean(decoded)).value;
    assert GetFile(roots, host, q) == ServeBody(host.clean(decoded), size, host, q.range, m.name);
  }

  /** A BMP file is listed with a thumbnail URL, yet that URL is answered with
      415: the listing counts "image/bmp" among its image types, and the
      thumbnail handler does not. */
  lemma BmpThumbnailRefused(roots: seq<string>, host: Host, q: FileQuery, f: FileInfo, parent: string, decoded: string)
    requires !f.isDir
    requires host.detectMime(NewDirEntry(f, parent, host).path) == Some(MimeInfo("image/bmp", {}))
    requires q.path == host.queryEscape(host.clean(NewDirEntry(f, parent, host).path)) && q.path != ""
    requires q.thumbnail == "true"
    requires host.queryUnescape(q.path) == Some(decoded) && host.clean(decoded) == NewDirEntry(f, parent, host).path
    requires Listing.InOpenScope(host.clean(decoded), roots, host.sep)
    requires host.openFile(host.clean(decoded)).Opened?
    ensures Listing.Kept(f, parent, host)
    ensures var e := Listing.EntryFor(f, parent, roots, host);
            e.mediaType == Image && e.thumbnail == "/file?path=" + q.path + "&thumbnail=true"
    ensures GetFile(roots, host, q) == JsonError(415, "Thumbnail generation not supported for this format")
  {
    BmpTypes();
    var size := host.openFile(host.clean(decoded)).size;
    assert ServeOpened(host.clean(decoded), size, host, q)
           == JsonError(415, "Thumbnail generation not supported for this format");
  }

  /** "image/bmp" is one of the listing's image types but not a thumbnail type. */
  lemma BmpTypes()
    ensures Listing.IsAnyOf(MimeInfo("image/bmp", {}), Listing.ImageTypes)
    ensures !Listing.IsAnyOf(MimeInfo("image/bmp", {}), Listing.VideoTypes)
    ensures !Listing.IsAnyOf(MimeInfo("image/bmp", {}), Listing.AudioTypes)
    ensures !Listing.IsAnyOf(MimeInfo("image/bmp", {}), ThumbnailTypes)
  {
    var m := MimeInfo("image/bmp", {});
    assert "image/bmp" in Listing.ImageTypes && MimeIs(m, "image/bmp");
    assert forall t :: t in ThumbnailTypes ==> !MimeIs(m, t);
    assert forall t :: t in Listing.VideoTypes ==> !MimeIs(m, t);
    assert forall t :: t in Listing.AudioTypes ==> !MimeIs(m, t);
  }
}

=== FILE: listing.dfy ===
/** The listing handlers of handlers/disk.go: GetShared (the /api/shared
    route) and GetDirectory (the /directory route). Both default their paging
    parameters, check the requested path against the shared roots, turn the
    directory's files into entries (dropping files whose MIME type cannot be
    detected), sort folders first and then by name, and answer one window of
    the sorted list together with its full length. */
module Listing {
  import opened Base
  import opened Models

  const DefaultLimit: nat := 50

  // ---------------------------------------------------------------------------
  // Query parameters
  // ---------------------------------------------------------------------------

  /** The raw query value after c.DefaultQuery: the default text when absent. */
  function QueryText(raw: Option<string>, default: string): string {
    if raw.Some? then raw.value else default
  }

  /** `limit`: a positive integer is honoured, anything else means 50. */
  function LimitParam(raw: Option<string>): (limit: nat)
    ensures 1 <= limit <= Int64Max
    ensures var n := ParseInt64(QueryText(raw, "50"));
            n.Some? && n.value > 0 ==> limit == n.value
    ensures var n := ParseInt64(QueryText(raw, "50"));
            !(n.Some? && n.value > 0) ==> limit == DefaultLimit
  {
    var n := ParseInt64(QueryText(raw, "50"));
    if n.None? || n.value <= 0 then DefaultLimit else n.value
  }

  /** `offset`: a non-negative integer is honoured, anything else means 0. */
  function OffsetParam(raw: Option<string>): (offset: nat)
    ensures offset <= Int64Max
    ensures var n := ParseInt64(QueryText(raw, "0"));
            n.Some? && n.value >= 0 ==> offset == n.value
    ensures var n := ParseInt64(QueryText(raw, "0"));
            !(n.Some? && n.value >= 0) ==> offset == 0
  {
    var n := ParseInt64(QueryText(raw, "0"));
    if n.None? || n.value < 0 then 0 else n.value
  }

  /** An absent or unreadable parameter falls back to the first page of 50. */
  lemma DefaultPage()
    ensures LimitParam(None) == 50 && OffsetParam(None) == 0
    ensures LimitParam(Some("")) == 50 && OffsetParam(Some("")) == 0
    ensures LimitParam(Some("-3")) == 50 && OffsetParam(Some("-3")) == 0
    ensures LimitParam(Some("0")) == 50
  {
    assert ParseInt64("50") == Some(50) by {
      assert DigitsValue("5") == 5;
      assert "50"[..1] == "5";
    }
    assert ParseInt64("0") == Some(0);
    assert ParseInt64("-3") == Some(-3) by {
      assert "-3"[1..] == "3";
    }
  }

  // ---------------------------------------------------------------------------
  // Shared scope
  // ---------------------------------------------------------------------------

  /** GetShared's test: an empty shared list admits nothing. */
  predicate InSharedScope(path: string, roots: seq<string>, sep: char) {
    AnyCovers(roots, path, sep)
  }

  /** GetDirectory's and GetFile's test: an empty shared list admits everything. */
  predicate InOpenScope(path: string, roots: seq<string>, sep: char) {
    |roots| == 0 || AnyCovers(roots, path, sep)
  }

  /** The two tests differ exactly when nothing is shared. */
  lemma ScopeVariants(path: string, roots: seq<string>, sep: char)
    ensures |roots| == 0 ==> !InSharedScope(path, roots, sep) && InOpenScope(path, roots, sep)
    ensures |roots| > 0 ==> (InSharedScope(path, roots, sep) <==> InOpenScope(path, roots, sep))
    ensures InSharedScope(path, roots, sep) <==>
              exists i :: 0 <= i < |roots| && (path == roots[i] || HasPrefix(path, roots[i] + [sep]))
  {
  }

  /** A sibling whose name merely extends the root's last component is outside. */
  lemma SiblingIsOutside()
    ensures !InSharedScope("/a/bc", ["/a/b"], '/')
    ensures InSharedScope("/a/b/c", ["/a/b"], '/')
  {
    assert "/a/bc"[4] != "/a/b/"[4];
    assert "/a/b/c"[..5] == "/a/b/";
  }

  /** Sharing the file-system root "/" admits only "/" itself, never a path below it. */
  lemma SharingSlashCoversOnlySlash(path: string)
    requires forall i :: 0 <= i < |path| - 1 ==> !(path[i] == '/' && path[i + 1] == '/')
    ensures InSharedScope(path, ["/"], '/') <==> path == "/"
  {
    RootWithTrailingSeparatorCoversItselfOnly("/", path, '/');
  }

  // ---------------------------------------------------------------------------
  // Entries
  // ---------------------------------------------------------------------------

  const ImageTypes: seq<string> := ["image/jpeg", "image/png", "image/webp", "image/gif", "image/bmp"]
  const VideoTypes: seq<string> := ["video/mp4", "video/webm", "video/avi", "video/mov", "video/ogg"]
  const AudioTypes: seq<string> := ["audio/mpeg", "audio/wav", "audio/ogg", "audio/aac", "audio/flac"]

  predicate IsAnyOf(m: MimeInfo, types: seq<string>) {
    exists t :: t in types && MimeIs(m, t)
  }

  /** The three MIME tests run in turn, so a later family overrides an earlier one. */
  function Classify(e: DirEntry, m: MimeInfo, host: Host): (r: DirEntry)
    requires e.mediaType == NoMedia
    ensures r.name == e.name && r.path == e.path && r.isDir == e.isDir && r.size == e.size
    ensures r.isShared == e.isShared
    ensures r.mediaType == Audio <==> IsAnyOf(m, AudioTypes)
    ensures r.mediaType == Video <==> IsAnyOf(m, VideoTypes) && !IsAnyOf(m, AudioTypes)
    ensures r.mediaType == Image <==>
              IsAnyOf(m, ImageTypes) && !IsAnyOf(m, VideoTypes) && !IsAnyOf(m, AudioTypes)
    ensures r.mediaType == NoMedia ==> r == e
    ensures r.mediaType == Image ==>
              r.thumbnail == "/file?path=" + host.queryEscape(host.clean(e.path)) + "&thumbnail=true"
    ensures r.mediaType == Video ==> r.thumbnail == "/static/icons/video-icon.png"
    ensures r.mediaType == Audio ==> r.thumbnail == "/static/icons/audio-icon.png"
  {
    var e1 := if IsAnyOf(m, ImageTypes)
      then e.(thumbnail := "/file?path=" + host.queryEscape(host.clean(e.path)) + "&thumbnail=true",
              mediaType := Image)
      else e;
    var e2 := if IsAnyOf(m, VideoTypes)
      then e1.(thumbnail := "/static/icons/video-icon.png", mediaType := Video)
      else e1;
    if IsAnyOf(m, AudioTypes)
      then e2.(thumbnail := "/static/icons/audio-icon.png", mediaType := Audio)
      else e2
  }

  /** The first-match loop that compares an entry's path with each cleaned root. */
  function MatchesRoot(path: string, roots: seq<string>, clean: string -> string): (r: bool)
    ensures r <==> exists i :: 0 <= i < |roots| && path == clean(roots[i])
  {
    if |roots| == 0 then false
    else if path == clean(roots[0]) then true
    else
      var rest := MatchesRoot(path, roots[1..], clean);
      assert forall i :: 1 <= i < |roots| ==> roots[i] == roots[1..][i - 1];
      rest
  }

  /** A file stays in the listing unless its MIME type cannot be detected. */
  predicate Kept(f: FileInfo, parent: string, host: Host) {
    f.isDir || host.detectMime(NewDirEntry(f, parent, host).path).Some?
  }

  /** The entry a kept file contributes. */
  function EntryFor(f: FileInfo, parent: string, roots: seq<string>, host: Host): (e: DirEntry)
    requires Kept(f, parent, host)
    ensures e.name == f.name && e.isDir == f.isDir && e.size == f.size
    ensures e.path == NewDirEntry(f, parent, host).path
    ensures e.isShared <==> exists i :: 0 <= i < |roots| && e.path == host.clean(roots[i])
    ensures e.isDir ==> e.mediaType == NoMedia && e.thumbnail == ""
  {
    var e := NewDirEntry(f, parent, host);
    var classified := if e.isDir then e else Classify(e, host.detectMime(e.path).value, host);
    classified.(isShared := MatchesRoot(classified.path, roots, host.clean))
  }

  function KeepFn(parent: string, host: Host): FileInfo -> bool {
    f => Kept(f, parent, host)
  }

  /** The loop over Readdir's files, in directory order: each kept file
      contributes its entry. */
  function Collect(files: seq<FileInfo>, parent: string, roots: seq<string>, host: Host): seq<DirEntry>
    decreases |files|
  {
    if |files| == 0 then []
    else Contribution(files[0], parent, roots, host) + Collect(files[1..], parent, roots, host)
  }

  /** What one file adds to the listing: its entry when kept, nothing otherwise. */
  function Contribution(f: FileInfo, parent: string, roots: seq<string>, host: Host): (r: seq<DirEntry>)
    ensures Kept(f, parent, host) ==> r == [EntryFor(f, parent, roots, host)]
    ensures !Kept(f, parent, host) ==> r == []
  {
    if Kept(f, parent, host) then [EntryFor(f, parent, roots, host)] else []
  }

  /** There are as many entries as kept files. */
  lemma {:induction false} CollectLength(files: seq<FileInfo>, parent: string, roots: seq<string>, host: Host)
    ensures |Collect(files, parent, roots, host)| == |Filter(files, KeepFn(parent, host))|
    decreases |files|
  {
    if |files| > 0 {
      CollectLength(files[1..], parent, roots, host);
      assert KeepFn(parent, host)(files[0]) == Kept(files[0], parent, host);
    }
  }

  /** Every listed entry is the entry of a kept file. */
  lemma {:induction false} CollectSound(files: seq<FileInfo>, parent: string, roots: seq<string>, host: Host)
    ensures forall e :: e in Collect(files, parent, roots, host) ==>
              exists i :: 0 <= i < |files| && Kept(files[i], parent, host) && e == EntryFor(files[i], parent, roots, host)
    decreases |files|
  {
    if |files| > 0 {
      var tail := files[1..];
      CollectSound(tail, parent, roots, host);
      CollectCons(files, parent, roots, host);
      var head := Contribution(files[0], parent, roots, host);
      var rest := Collect(tail, parent, roots, host);
      forall e | e in head + rest
        ensures exists i :: 0 <= i < |files| && Kept(files[i], parent, host) && e == EntryFor(files[i], parent, roots, host)
      {
        if e in rest {
          var i :| 0 <= i < |tail| && Kept(tail[i], parent, host) && e == EntryFor(tail[i], parent, roots, host);
          assert files[i + 1] == tail[i];
        } else {
          assert e in head;
        }
      }
    }
  }

  /** Every kept file is listed. */
  lemma {:induction false} CollectComplete(files: seq<FileInfo>, parent: string, roots: seq<string>, host: Host)
    ensures forall i :: 0 <= i < |files| && Kept(files[i], parent, host) ==>
              EntryFor(files[i], parent, roots, host) in Collect(files, parent, roots, host)
    decreases |files|
  {
    if |files| > 0 {
      var tail := files[1..];
      CollectComplete(tail, parent, roots, host);
      forall i | 0 <= i < |files| && Kept(files[i], parent, host)
        ensures EntryFor(files[i], parent, roots, host) in Collect(files, parent, roots, host)
      {
        if i > 0 {
          assert files[i] == tail[i - 1];
        }
      }
    }
  }

  lemma CollectCons(files: seq<FileInfo>, parent: string, roots: seq<string>, host: Host)
    requires |files| > 0
    ensures Collect(files, parent, roots, host)
            == Contribution(files[0], parent, roots, host) + Collect(files[1..], parent, roots, host)
  {
  }

  /** Collecting distributes over concatenation: directory order is kept. */
  lemma {:induction false} CollectAppend(a: seq<FileInfo>, b: seq<FileInfo>, parent: string, roots: seq<string>, host: Host)
    ensures Collect(a + b, parent, roots, host) == Collect(a, parent, roots, host) + Collect(b, parent, roots, host)
    decreases |a|
  {
    if |a| == 0 {
      assert a + b == b;
    } else {
      var ab := a + b;
      assert ab[0] == a[0] && ab[1..] == a[1..] + b;
      CollectAppend(a[1..], b, parent, roots, host);
      CollectCons(ab, parent, roots, host);
      CollectCons(a, parent, roots, host);
      AppendAssoc(Contribution(a[0], parent, roots, host), Collect(a[1..], parent, roots, host),
                  Collect(b, parent, roots, host));
    }
  }

  /** Listing one file: a kept file gives its entry, a file whose MIME type
      cannot be detected gives nothing. */
  lemma CollectOne(f: FileInfo, parent: string, roots: seq<string>, host: Host)
    ensures Kept(f, parent, host) ==> Collect([f], parent, roots, host) == [EntryFor(f, parent, roots, host)]
    ensures !f.isDir && host.detectMime(NewDirEntry(f, parent, host).path).None? ==>
              Collect([f], parent, roots, host) == []
  {
    assert [f][1..] == [];
  }

  /** The entries of the top-level shared view: each root that still exists,
      marked shared, and without MIME detection. */
  function SharedRootEntries(roots: seq<string>, host: Host): (r: seq<DirEntry>)
    ensures |r| == |Filter(roots, StatFn(host))|
    ensures forall k :: 0 <= k < |r| ==> r[k].isShared && r[k].mediaType == NoMedia
  {
    if |roots| == 0 then []
    else
      var rest := SharedRootEntries(roots[1..], host);
      assert StatFn(host)(roots[0]) == RootEntry(roots[0], host).Some?;
      match RootEntry(roots[0], host)
      case None => rest
      case Some(e) => [e] + rest
  }

  /** Every entry of the top-level view is the entry of a root that stats. */
  lemma {:induction false} SharedRootEntriesSound(roots: seq<string>, host: Host)
    ensures forall e :: e in SharedRootEntries(roots, host) ==>
              exists i :: 0 <= i < |roots| && RootEntry(roots[i], host) == Some(e)
    decreases |roots|
  {
    if |roots| > 0 {
      var tail := roots[1..];
      SharedRootEntriesSound(tail, host);
      forall e | e in SharedRootEntries(roots, host)
        ensures exists i :: 0 <= i < |roots| && RootEntry(roots[i], host) == Some(e)
      {
        if e in SharedRootEntries(tail, host) {
          var i :| 0 <= i < |tail| && RootEntry(tail[i], host) == Some(e);
          assert roots[i + 1] == tail[i];
        } else {
          assert RootEntry(roots[0], host) == Some(e);
        }
      }
    }
  }

  /** Every root that stats has its entry in the top-level view. */
  lemma {:induction false} SharedRootEntriesComplete(roots: seq<string>, host: Host)
    ensures forall i :: 0 <= i < |roots| && RootEntry(roots[i], host).Some? ==>
              RootEntry(roots[i], host).value in SharedRootEntries(roots, host)
    decreases |roots|
  {
    if |roots| > 0 {
      var tail := roots[1..];
      SharedRootEntriesComplete(tail, host);
      forall i | 0 <= i < |roots| && RootEntry(roots[i], host).Some?
        ensures RootEntry(roots[i], host).value in SharedRootEntries(roots, host)
      {
        if i > 0 {
          assert roots[i] == tail[i - 1];
        }
      }
    }
  }

  /** One shared root in the top-level view: when its cleaned path can be
      stat'ed, the entry of that file under its parent directory, marked shared. */
  function RootEntry(root: string, host: Host): (e: Option<DirEntry>)
    ensures e.Some? <==> host.stat(host.clean(root)).Some?
    ensures e.Some? ==> e.value.isShared && e.value.mediaType == NoMedia
                        && e.value.name == host.stat(host.clean(root)).value.name
  {
    var cleanPath := host.clean(root);
    match host.stat(cleanPath)
    case None => None
    case Some(info) => Some(NewDirEntry(info, host.dir(cleanPath), host).(isShared := true))
  }

  /** The roots that appear in the top-level view. */
  function StatFn(host: Host): string -> bool {
    root => RootEntry(root, host).Some?
  }

  /** The top-level view keeps the order of the shared roots. */
  lemma {:induction false} SharedRootEntriesAppend(a: seq<string>, b: seq<string>, host: Host)
    ensures SharedRootEntries(a + b, host) == SharedRootEntries(a, host) + SharedRootEntries(b, host)
    decreases |a|
  {
    if |a| == 0 {
      assert a + b == b;
    } else {
      var ab := a + b;
      assert ab[0] == a[0] && ab[1..] == a[1..] + b;
      SharedRootEntriesAppend(a[1..], b, host);
      var head: seq<DirEntry> := if RootEntry(a[0], host).Some? then [RootEntry(a[0], host).value] else [];
      assert SharedRootEntries(ab, host) == head + SharedRootEntries(a[1..] + b, host);
      assert SharedRootEntries(a, host) == head + SharedRootEntries(a[1..], host);
      AppendAssoc(head, SharedRootEntries(a[1..], host), SharedRootEntries(b, host));
    }
  }

  /** The volumes listed for an empty path, as folder entries, in enumeration order. */
  function DiskEntries(disks: seq<Disk>, now: string): (r: seq<DirEntry>)
    ensures |r| == |disks|
    ensures forall k :: 0 <= k < |r| ==>
              r[k].name == disks[k].name && r[k].path == disks[k].path && r[k].isDir
              && r[k].used == disks[k].used && r[k].total == disks[k].total
  {
    seq(|disks|, k requires 0 <= k < |disks| =>
      DirEntry(disks[k].name, disks[k].path, true, 0, now, "", NoMedia, false, disks[k].used, disks[k].total))
  }

  // ---------------------------------------------------------------------------
  // Sorting
  // ---------------------------------------------------------------------------

  /** The comparator given to sort.Slice: folders first, then by name. */
  predicate Before(a: DirEntry, b: DirEntry) {
    if a.isDir != b.isDir then a.isDir else StrLess(a.name, b.name)
  }

  predicate SortedForListing(s: seq<DirEntry>) {
    forall i, j :: 0 <= i < j < |s| ==> !Before(s[j], s[i])
  }

  lemma BeforeAsymmetric(a: DirEntry, b: DirEntry)
    requires Before(a, b)
    ensures !Before(b, a)
  {
    if a.isDir == b.isDir && StrLess(b.name, a.name) {
      StrLessTransitive(a.name, b.name, a.name);
      StrLessIrreflexive(a.name);
    }
  }

  lemma NotBeforeTransitive(a: DirEntry, b: DirEntry, c: DirEntry)
    requires !Before(b, a) && !Before(c, b)
    ensures !Before(c, a)
  {
    if a.isDir == b.isDir && b.isDir == c.isDir {
      StrNotLessTransitive(a.name, b.name, c.name);
    }
  }

  /** Placing `x` in front of a sorted list that does not start before it keeps it sorted. */
  lemma ConsSorted(x: DirEntry, s: seq<DirEntry>)
    requires SortedForListing(s) && (|s| > 0 ==> !Before(s[0], x))
    ensures SortedForListing([x] + s)
  {
    var r := [x] + s;
    forall i, j | 0 <= i < j < |r|
      ensures !Before(r[j], r[i])
    {
      if i == 0 && j > 1 {
        NotBeforeTransitive(x, s[0], s[j - 1]);
      }
    }
  }

  /** A head that comes before every element of a sorted tail keeps it sorted. */
  lemma HeadSorted(h: DirEntry, tail: seq<DirEntry>)
    requires SortedForListing(tail)
    requires forall k :: 0 <= k < |tail| ==> !Before(tail[k], h)
    ensures SortedForListing([h] + tail)
  {
    var r := [h] + tail;
    forall i, j | 0 <= i < j < |r|
      ensures !Before(r[j], r[i])
    {
      assert r[j] == tail[j - 1];
      if i > 0 {
        assert r[i] == tail[i - 1];
      }
    }
  }

  /** Every element of a permutation of `s[1..]` plus `x` follows `s[0]` when `s` is sorted and `x` does not precede `s[0]`. */
  lemma FollowsHead(s: seq<DirEntry>, x: DirEntry, tail: seq<DirEntry>)
    requires |s| > 0 && SortedForListing(s) && Before(s[0], x)
    requires multiset(tail) == multiset(s[1..]) + multiset{x}
    ensures forall k :: 0 <= k < |tail| ==> !Before(tail[k], s[0])
  {
    forall k | 0 <= k < |tail|
      ensures !Before(tail[k], s[0])
    {
      assert tail[k] in multiset(tail);
      if tail[k] == x {
        BeforeAsymmetric(s[0], x);
      } else {
        assert tail[k] in multiset(s[1..]);
        var m :| 0 <= m < |s[1..]| && s[1..][m] == tail[k];
        assert s[m + 1] == tail[k];
      }
    }
  }

  function Insert(x: DirEntry, s: seq<DirEntry>): (r: seq<DirEntry>)
    requires SortedForListing(s)
    ensures multiset(r) == multiset(s) + multiset{x}
    ensures SortedForListing(r)
  {
    if |s| == 0 then [x]
    else if !Before(s[0], x) then
      ConsSorted(x, s);
      [x] + s
    else
      var tail := Insert(x, s[1..]);
      assert s == [s[0]] + s[1..];
      FollowsHead(s, x, tail);
      HeadSorted(s[0], tail);
      [s[0]] + tail
  }

  /** The sort.Slice call: a permutation in listing order. */
  function SortEntries(s: seq<DirEntry>): (r: seq<DirEntry>)
    ensures multiset(r) == multiset(s)
    ensures SortedForListing(r)
    ensures forall i, j :: 0 <= i < j < |r| && r[j].isDir ==> r[i].isDir
    ensures forall i, j :: 0 <= i < j < |r| && r[i].isDir == r[j].isDir ==> !StrLess(r[j].name, r[i].name)
  {
    if |s| == 0 then []
    else
      assert s == [s[0]] + s[1..];
      Insert(s[0], SortEntries(s[1..]))
  }

  // ---------------------------------------------------------------------------
  // Paging
  // ---------------------------------------------------------------------------

  /** The JSON body `{entries, total}`. */
  datatype Page = Page(entries: seq<DirEntry>, total: nat)

  function Min(a: int, b: int): int {
    if a <= b then a else b
  }

  /** The offset/limit window over the sorted list. */
  function Window(all: seq<DirEntry>, offset: nat, limit: nat): (p: Page)
    requires limit >= 1
    ensures p.total == |all|
    ensures offset >= |all| ==> p.entries == []
    ensures offset < |all| ==>
              && 1 <= |p.entries| <= limit
              && p.entries == all[offset..Min(offset + limit, |all|)]
  {
    var total := |all|;
    var start := offset;
    var end := offset + limit;
    if start >= total then Page([], total)
    else if end > total then Page(all[start..total], total)
    else Page(all[start..end], total)
  }

  /** Successive windows, each starting where the previous one ended, read the
      list from the first offset to the end exactly once. */
  function ReadFrom(all: seq<DirEntry>, offset: nat, limit: nat): (r: seq<DirEntry>)
    requires limit >= 1
    ensures offset <= |all| ==> r == all[offset..]
    ensures offset > |all| ==> r == []
    decreases |all| - offset
  {
    var page := Window(all, offset, limit);
    if |page.entries| == 0 then []
    else page.entries + ReadFrom(all, offset + |page.entries|, limit)
  }

  // ---------------------------------------------------------------------------
  // The handlers
  // ---------------------------------------------------------------------------

  datatype Query = Query(path: string, offset: Option<string>, limit: Option<string>)

  /** A JSON reply, or the bare 500 that gin's Recovery middleware (installed
      by gin.Default in main.go) sends when the handler panics. */
  datatype Reply = Listed(page: Page) | Failed(status: nat, error: string) | Panicked

  /** The window as the handlers compute it on 64-bit `int`: `end` is
      offset + limit with wrap-around, so a sum past the largest int turns
      negative, and slicing with an end below the start panics. Otherwise it
      is the window. */
  function Paginate(all: seq<DirEntry>, offset: nat, limit: nat): (r: Reply)
    requires 1 <= limit <= Int64Max && offset <= Int64Max
    ensures r.Panicked? <==> offset < |all| && offset + limit > Int64Max
    ensures !r.Panicked? ==> r == Listed(Window(all, offset, limit))
  {
    var total := |all|;
    var start := offset;
    var end := AddInt64(offset, limit);
    if start >= total then Listed(Page([], total))
    else if end > total then Listed(Page(all[start..total], total))
    else if end < start then Panicked
    else Listed(Page(all[start..end], total))
  }

  /** The listing of a directory's files, or the error the read produced. */
  function ReadListing(cleanPath: string, roots: seq<string>, host: Host, offset: nat, limit: nat): Reply
    requires 1 <= limit <= Int64Max && offset <= Int64Max
  {
    match host.readDir(cleanPath)
    case OpenFailed => Failed(500, "Unable to open directory")
    case ReadFailed => Failed(500, "Unable to read directory")
    case Entries(files) => Paginate(SortEntries(Collect(files, cleanPath, roots, host)), offset, limit)
  }

  /** GET /api/shared. */
  function GetShared(roots: seq<string>, host: Host, q: Query): (r: Reply)
    ensures r.Listed? ==> |r.page.entries| <= LimitParam(q.limit)
    ensures r.Failed? && r.status == 400 <==> q.path != "" && !host.isAbs(host.clean(q.path))
    ensures r.Failed? && r.status == 403 <==>
              q.path != "" && host.isAbs(host.clean(q.path))
              && !InSharedScope(host.clean(q.path), roots, host.sep)
    ensures q.path != "" && |roots| == 0 ==> r.Failed?
    ensures r.Panicked? ==> OffsetParam(q.offset) + LimitParam(q.limit) > Int64Max
  {
    var limit := LimitParam(q.limit);
    var offset := OffsetParam(q.offset);
    if q.path == "" then
      Paginate(SortEntries(SharedRootEntries(roots, host)), offset, limit)
    else
      var cleanPath := host.clean(q.path);
      if !host.isAbs(cleanPath) then Failed(400, "Invalid path: must be absolute")
      else if !InSharedScope(cleanPath, roots, host.sep) then Failed(403, "Access denied: path not shared")
      else ReadListing(cleanPath, roots, host, offset, limit)
  }

  /** GET /directory. `requestPath` is the URL path the request arrived on. */
  function GetDirectory(roots: seq<string>, host: Host, q: Query, requestPath: string): (r: Reply)
    ensures r.Listed? ==> |r.page.entries| <= LimitParam(q.limit)
    ensures r.Failed? && r.status == 400 <==> q.path != "" && !host.isAbs(host.clean(q.path))
    ensures r.Failed? && r.status == 403 <==>
              q.path != "" && host.isAbs(host.clean(q.path)) && requestPath != "/directory"
              && !InOpenScope(host.clean(q.path), roots, host.sep)
    ensures r.Panicked? ==> OffsetParam(q.offset) + LimitParam(q.limit) > Int64Max
  {
    var limit := LimitParam(q.limit);
    var offset := OffsetParam(q.offset);
    if q.path == "" then
      match host.disks
      case None => Failed(500, "Unsupported OS")
      case Some(ds) => Paginate(DiskEntries(ds, host.now), offset, limit)
    else
      var cleanPath := host.clean(q.path);
      if !host.isAbs(cleanPath) then Failed(400, "Invalid path: must be absolute")
      else if requestPath != "/directory" && !InOpenScope(cleanPath, roots, host.sep) then Failed(403, "Access denied")
      else ReadListing(cleanPath, roots, host, offset, limit)
  }

  // ---------------------------------------------------------------------------
  // Properties of the handlers
  // ---------------------------------------------------------------------------

  /** A relative path is refused before the file system is consulted: the
      answer does not depend on what reading the directory would give. */
  lemma RelativePathReadsNothing(roots: seq<string>, host: Host, q: Query, other: string -> DirRead, requestPath: string)
    requires q.path != "" && !host.isAbs(host.clean(q.path))
    ensures GetShared(roots, host, q) == GetShared(roots, host.(readDir := other), q)
              == Failed(400, "Invalid path: must be absolute")
    ensures GetDirectory(roots, host, q, requestPath) == GetDirectory(roots, host.(readDir := other), q, requestPath)
              == Failed(400, "Invalid path: must be absolute")
  {
  }

  /** main.go routes only "/directory" to GetDirectory, so its 403 never fires. */
  lemma DirectoryRouteNeverForbidden(roots: seq<string>, host: Host, q: Query)
    ensures GetDirectory(roots, host, q, "/directory") != Failed(403, "Access denied")
  {
  }

  /** With nothing shared, GetShared refuses every absolute path while
      GetDirectory lets every one through to the file system. */
  lemma EmptyShareListDisagrees(host: Host, q: Query, requestPath: string)
    requires q.path != "" && host.isAbs(host.clean(q.path))
    ensures GetShared([], host, q) == Failed(403, "Access denied: path not shared")
    ensures GetDirectory([], host, q, requestPath) == ReadListing(host.clean(q.path), [], host,
              OffsetParam(q.offset), LimitParam(q.limit))
  {
  }

  /** An absolute path that is admitted and whose directory reads is answered
      with one window of the sorted entries of its kept files. */
  lemma DirectoryListingShape(roots: seq<string>, host: Host, q: Query, requestPath: string, files: seq<FileInfo>)
    requires q.path != "" && host.isAbs(host.clean(q.path))
    requires requestPath == "/directory" || InOpenScope(host.clean(q.path), roots, host.sep)
    requires host.readDir(host.clean(q.path)) == Entries(files)
    ensures GetDirectory(roots, host, q, requestPath)
            == Paginate(SortEntries(Collect(files, host.clean(q.path), roots, host)),
                        OffsetParam(q.offset), LimitParam(q.limit))
  {
  }

  /** GET /api/shared with no path lists the shared folders themselves:
      one entry for each folder that can be stat'ed, every one of them and
      nothing else, sorted and then paged. */
  lemma SharedTopLevelShape(roots: seq<string>, host: Host, q: Query)
    requires q.path == ""
    ensures var entries := SortEntries(SharedRootEntries(roots, host));
            && GetShared(roots, host, q) == Paginate(entries, OffsetParam(q.offset), LimitParam(q.limit))
            && |entries| == |Filter(roots, StatFn(host))|
            && (forall i :: 0 <= i < |roots| && RootEntry(roots[i], host).Some? ==>
                  RootEntry(roots[i], host).value in entries)
            && (forall e :: e in entries ==>
                  exists i :: 0 <= i < |roots| && RootEntry(roots[i], host) == Some(e))
  {
    var unsorted := SharedRootEntries(roots, host);
    var entries := SortEntries(unsorted);
    SharedRootEntriesSound(roots, host);
    SharedRootEntriesComplete(roots, host);
    assert forall e :: e in entries <==> e in unsorted by {
      forall e ensures e in entries <==> e in unsorted {
        assert e in entries <==> e in multiset(entries);
        assert e in unsorted <==> e in multiset(unsorted);
      }
    }
  }

  /** GET /api/shared on an absolute path inside a shared folder reads that
      folder: a failure to open or to read it is a 500, and otherwise the
      answer is the sorted page of its kept entries, as for /directory. */
  lemma SharedListingShape(roots: seq<string>, host: Host, q: Query)
    requires q.path != "" && host.isAbs(host.clean(q.path))
    requires InSharedScope(host.clean(q.path), roots, host.sep)
    ensures var cleanPath := host.clean(q.path);
            var r := GetShared(roots, host, q);
            match host.readDir(cleanPath)
            case OpenFailed => r == Failed(500, "Unable to open directory")
            case ReadFailed => r == Failed(500, "Unable to read directory")
            case Entries(files) =>
              r == Paginate(SortEntries(Collect(files, cleanPath, roots, host)),
                            OffsetParam(q.offset), LimitParam(q.limit))
  {
  }

  /** The answer to a listing: its total counts every folder and every file
      whose MIME type was detected, whatever the offset and limit; an offset
      at or past it gives no entries; otherwise, while offset + limit fits in
      a 64-bit int, the entries are the sorted entries from the offset on, at
      most `limit` of them, and past that the handler panics. */
  lemma ListingWindow(files: seq<FileInfo>, parent: string, roots: seq<string>, host: Host, offset: nat, limit: nat)
    requires 1 <= limit <= Int64Max && offset <= Int64Max
    ensures var sorted := SortEntries(Collect(files, parent, roots, host));
            var total := |Filter(files, KeepFn(parent, host))|;
            var r := Paginate(sorted, offset, limit);
            && |sorted| == total
            && (offset >= total ==> r == Listed(Page([], total)))
            && (offset < total && offset + limit <= Int64Max ==>
                  r == Listed(Page(sorted[offset..Min(offset + limit, total)], total)))
            && (offset < total && offset + limit > Int64Max ==> r == Panicked)
  {
    var c := Collect(files, parent, roots, host);
    CollectLength(files, parent, roots, host);
    assert |SortEntries(c)| == |c| by {
      assert |multiset(SortEntries(c))| == |SortEntries(c)|;
      assert multiset(SortEntries(c)) == multiset(c);
    }
  }

  /** An offset below the total with a limit that takes offset + limit past
      the largest int makes the end wrap negative: the directory is answered
      with a panic, not a page. `offset=1&limit=9223372036854775807` on a
      directory with two kept entries is one such request. */
  lemma OverflowingLimitPanics(roots: seq<string>, host: Host, q: Query, files: seq<FileInfo>, offset: nat, limit: nat)
    requires q.path != "" && host.isAbs(host.clean(q.path))
    requires host.readDir(host.clean(q.path)) == Entries(files)
    requires 1 <= limit <= Int64Max && offset <= Int64Max && offset + limit > Int64Max
    requires q.offset == Some(NatToString(offset)) && q.limit == Some(NatToString(limit))
    requires offset < |Filter(files, KeepFn(host.clean(q.path), host))|
    ensures GetDirectory(roots, host, q, "/directory") == Panicked
  {
    var cleanPath := host.clean(q.path);
    ParseFormatRoundTrip(offset);
    ParseFormatRoundTrip(limit);
    ListingWindow(files, cleanPath, roots, host, offset, limit);
  }
}

=== FILE: mobile.dfy ===
/** The logic of the mobile front end (static/mobile.js): the paging state
    machine behind loadDirectory, the navigation resets, the breadcrumb with
    scope-enabled links, and formatSize. The DOM and the fetches are left out;
    a fetch is a value and its reply an argument. */
module Mobile {
  import opened Base
  import opened Models
  import Listing

  // ---------------------------------------------------------------------------
  // Pager
  // ---------------------------------------------------------------------------

  const Limit: nat := 50

  /** The closure's state and the items shown. */
  datatype Pager = Pager(currentPath: string, offset: nat, loading: bool, hasMore: bool, rows: seq<DirEntry>)

  const Initial: Pager := Pager("", 0, false, true, [])

  /** A /directory request; `append` says whether its reply extends the items. */
  datatype Fetch = Fetch(path: string, offset: nat, limit: nat, append: bool)

  datatype Move = Move(pager: Pager, fetch: Option<Fetch>)

  /** loadDirectory(path, append): ignored while a load is in flight or when
      nothing more is expected; otherwise marks the pager loading and asks for
      the page at the current offset. */
  function LoadDirectory(s: Pager, path: string, append: bool): (m: Move)
    ensures s.loading || !s.hasMore ==> m == Move(s, None)
    ensures !s.loading && s.hasMore ==>
              m.pager == s.(loading := true) && m.fetch == Some(Fetch(path, s.offset, Limit, append))
  {
    if s.loading || !s.hasMore then Move(s, None)
    else Move(s.(loading := true), Some(Fetch(path, s.offset, Limit, append)))
  }

  /** A reply to `f` arrives with `entries` and the folder's `total`. The
      offset advances by what was received, hasMore compares it with the
      total, and a container the items do not yet fill asks for more at once. */
  function Loaded(s: Pager, f: Fetch, entries: seq<DirEntry>, total: nat, unfilled: bool): (m: Move)
    ensures m.pager.offset == s.offset + |entries|
    ensures m.pager.hasMore <==> s.offset + |entries| < total
    ensures m.pager.rows == (if f.append then s.rows + entries else entries)
    ensures m.pager.currentPath == s.currentPath
    ensures m.fetch.Some? <==> s.offset + |entries| < total && unfilled
    ensures m.pager.loading <==> m.fetch.Some?
    ensures m.fetch.Some? ==> m.fetch.value == Fetch(f.path, s.offset + |entries|, Limit, true)
  {
    var rows := if f.append then s.rows + entries else entries;
    var next := s.(rows := rows, offset := s.offset + |entries|, hasMore := s.offset + |entries| < total, loading := false);
    if next.hasMore && unfilled then LoadDirectory(next, f.path, true) else Move(next, None)
  }

  /** A fetch that rejects, or a body that is not JSON, reaches the catch
      handler before anything is rendered: only the loading flag is cleared. */
  function Failed(s: Pager): (s': Pager)
    ensures !s'.loading
    ensures s'.offset == s.offset && s'.hasMore == s.hasMore && s'.rows == s.rows && s'.currentPath == s.currentPath
  {
    s.(loading := false)
  }

  /** An error reply of /directory (a JSON body with `error` and no
      `entries`, such as the 500 of a folder that cannot be opened) is not
      told apart from a listing, since the status is never checked: rendering
      a first page empties the items, the missing list then throws, and the
      catch handler clears the loading flag. The cursor stays where it was. */
  function ErrorReply(s: Pager, f: Fetch): (s': Pager)
    ensures !s'.loading
    ensures !f.append ==> s'.rows == []
    ensures f.append ==> s'.rows == s.rows
    ensures s'.offset == s.offset && s'.hasMore == s.hasMore && s'.currentPath == s.currentPath
  {
    var rows := if f.append then s.rows else [];
    s.(rows := rows, loading := false)
  }

  /** An error reply to an appended page behaves like a failed fetch; to a
      first page it also loses the items shown, which a failed fetch keeps. */
  lemma ErrorReplyVersusFailure(s: Pager, f: Fetch)
    ensures f.append ==> ErrorReply(s, f) == Failed(s)
    ensures !f.append ==> (ErrorReply(s, f) == Failed(s) <==> s.rows == [])
  {
  }

  /** Entering a folder whose listing fails with an error reply leaves an
      empty view that still expects entries at offset 0: the next scroll
      asks for that first page again, as an appended one. */
  lemma ErrorOnEnterRetriesFirstPage(s: Pager, path: string)
    requires !s.loading
    ensures var m := EnterFolder(s, path);
            && m.fetch.Some?
            && var s' := ErrorReply(m.pager, m.fetch.value);
               && s'.rows == [] && s'.offset == 0 && s'.hasMore && !s'.loading
               && OnScroll(s', true).fetch == Some(Fetch(path, 0, Limit, true))
  {
  }

  /** A click on a disk, a folder or an enabled crumb: the path is taken, the
      cursor is reset to the first page and the folder is loaded. */
  function EnterFolder(s: Pager, path: string): (m: Move)
    ensures m.pager.currentPath == path && m.pager.offset == 0 && m.pager.hasMore
    ensures m.fetch.Some? <==> !s.loading
    ensures !s.loading ==> m.fetch == Some(Fetch(path, 0, Limit, false))
  {
    LoadDirectory(s.(currentPath := path, offset := 0, hasMore := true), path, false)
  }

  /** The home link: the cursor is reset and the disks are fetched; the items
      stay until that reply arrives (DisksArrived). */
  function Home(s: Pager): (s': Pager)
    ensures s'.currentPath == "" && s'.offset == 0 && s'.hasMore
    ensures s'.loading == s.loading && s'.rows == s.rows
  {
    s.(currentPath := "", offset := 0, hasMore := true)
  }

  /** The reply of loadDisks: the rendered volumes replace the items, and
      nothing else in the pager changes. */
  function DisksArrived(s: Pager, disks: seq<DirEntry>): (s': Pager)
    ensures s'.rows == disks
    ensures s'.currentPath == s.currentPath && s'.offset == s.offset
    ensures s'.hasMore == s.hasMore && s'.loading == s.loading
  {
    s.(rows := disks)
  }

  /** Going home and receiving the disks shows exactly the disks, with the
      cursor back at the first page of no folder. */
  lemma HomeShowsDisks(s: Pager, disks: seq<DirEntry>)
    ensures var s' := DisksArrived(Home(s), disks);
            s'.rows == disks && s'.currentPath == "" && s'.offset == 0 && s'.hasMore
  {
  }

  /** The scroll listener: near the bottom, with more to come and no load in
      flight, the next page of the current path is appended. */
  function OnScroll(s: Pager, nearBottom: bool): (m: Move)
    ensures m.fetch.Some? <==> nearBottom && s.hasMore && !s.loading
    ensures m.fetch.Some? ==> m.fetch.value == Fetch(s.currentPath, s.offset, Limit, true)
    ensures m.fetch.None? ==> m.pager == s
  {
    if nearBottom && s.hasMore && !s.loading then LoadDirectory(s, s.currentPath, true) else Move(s, None)
  }

  /** The resize listener: the same, when the items no longer fill the container. */
  function OnResize(s: Pager, unfilled: bool): (m: Move)
    ensures m.fetch.Some? <==> unfilled && s.hasMore && !s.loading
    ensures m.fetch.Some? ==> m.fetch.value == Fetch(s.currentPath, s.offset, Limit, true)
    ensures m.fetch.None? ==> m.pager == s
  {
    if s.hasMore && !s.loading && unfilled then LoadDirectory(s, s.currentPath, true) else Move(s, None)
  }

  /** A click while a load is in flight moves the cursor to the new folder but
      requests nothing: the reply still on its way is for the old one. */
  lemma EnterWhileLoadingIsDropped(s: Pager, path: string)
    requires s.loading
    ensures EnterFolder(s, path).fetch.None? && EnterFolder(s, path).pager.currentPath == path
  {
  }

  /** One reply, served from the server's sorted list `all` of the folder,
      extends the items by exactly the next window. */
  lemma LoadedExtendsPrefix(s: Pager, f: Fetch, all: seq<DirEntry>, unfilled: bool)
    requires s.offset <= |all|
    requires f.append ==> s.rows == all[..s.offset]
    requires !f.append ==> s.offset == 0
    ensures var m := Loaded(s, f, Listing.Window(all, s.offset, Limit).entries, |all|, unfilled);
            && m.pager.offset <= |all|
            && m.pager.rows == all[..m.pager.offset]
            && (m.pager.hasMore <==> m.pager.offset < |all|)
            && (s.offset < |all| ==> m.pager.offset > s.offset)
  {
    var page := Listing.Window(all, s.offset, Limit);
    if s.offset < |all| {
      var end := Listing.Min(s.offset + Limit, |all|);
      assert all[..s.offset] + all[s.offset..end] == all[..end];
      assert all[0..end] == all[..end];
    }
  }

  /** Answering `f` from `all`, and every refill that answer triggers, while
      the items never fill the container. */
  function Settle(s: Pager, f: Fetch, all: seq<DirEntry>): (s': Pager)
    requires s.offset <= |all|
    requires f.append ==> s.rows == all[..s.offset]
    requires !f.append ==> s.offset == 0
    ensures !s'.loading && !s'.hasMore
    ensures s'.rows == all
    decreases |all| - s.offset
  {
    var m := Loaded(s, f, Listing.Window(all, s.offset, Limit).entries, |all|, true);
    LoadedExtendsPrefix(s, f, all, true);
    match m.fetch
    case None =>
      assert m.pager.offset == |all|;
      m.pager
    case Some(g) => Settle(m.pager, g, all)
  }

  /** Entering a folder on a screen the items never fill shows the whole
      folder, each entry once and in the server's order. */
  lemma EnterFolderShowsEverything(s: Pager, path: string, all: seq<DirEntry>)
    requires !s.loading
    ensures var m := EnterFolder(s, path);
            m.fetch.Some? && Settle(m.pager, m.fetch.value, all).rows == all
  {
  }

  // ---------------------------------------------------------------------------
  // Breadcrumbs (updateBreadcrumbs)
  // ---------------------------------------------------------------------------

  const NonEmpty: string -> bool := s => s != ""

  /** The parts of a path split at slashes and backslashes, empties dropped
      (splitting at runs of separators and then dropping empties gives the same). */
  function PathParts(path: string): (parts: seq<string>)
    ensures forall i :: 0 <= i < |parts| ==> parts[i] != "" && '/' !in parts[i] && '\\' !in parts[i]
  {
    var parts := Filter(Split(path, {'/', '\\'}), NonEmpty);
    assert forall i :: 0 <= i < |parts| ==> parts[i] in Split(path, {'/', '\\'});
    parts
  }

  /** A bare drive such as "C:". */
  predicate IsDriveToken(part: string) {
    |part| == 2 && IsLetter(part[0]) && part[1] == ':'
  }

  /** The accumulated path each crumb stands for: a leading drive gets a
      backslash, the first other part stands alone, and every later part is
      appended followed by a backslash. */
  function Prefixes(parts: seq<string>, i: nat, soFar: string): (r: seq<string>)
    requires i <= |parts|
    ensures |r| == |parts| - i
    decreases |parts| - i
  {
    if i == |parts| then []
    else
      var next := Accumulate(soFar, parts[i], i);
      [next] + Prefixes(parts, i + 1, next)
  }

  /** The path after part i: a leading drive gets a backslash, the first other
      part stands alone, and a later part is appended followed by a backslash. */
  function Accumulate(soFar: string, part: string, i: nat): string {
    if i == 0 && IsDriveToken(part) then part + "\\"
    else if soFar == "" then part
    else soFar + part + "\\"
  }

  lemma PrefixHead(parts: seq<string>, i: nat, soFar: string)
    requires i < |parts|
    ensures Prefixes(parts, i, soFar)[0] == Accumulate(soFar, parts[i], i)
  {
  }

  lemma PrefixShift(parts: seq<string>, i: nat, soFar: string, k: nat)
    requires i < k < |parts|
    ensures Prefixes(parts, i, soFar)[k - i] == Prefixes(parts, i + 1, Accumulate(soFar, parts[i], i))[k - i - 1]
  {
  }

  /** No accumulated path contains a slash: the parts have none and only
      backslashes are added. */
  lemma {:induction false} PrefixesHaveNoSlash(parts: seq<string>, i: nat, soFar: string)
    requires i <= |parts|
    requires '/' !in soFar && forall j :: 0 <= j < |parts| ==> '/' !in parts[j]
    ensures forall k :: 0 <= k < |parts| - i ==> '/' !in Prefixes(parts, i, soFar)[k]
    decreases |parts| - i
  {
    if i < |parts| {
      var next := Accumulate(soFar, parts[i], i);
      assert '/' !in next;
      PrefixesHaveNoSlash(parts, i + 1, next);
      forall k | 0 <= k < |parts| - i
        ensures '/' !in Prefixes(parts, i, soFar)[k]
      {
        if k == 0 {
          PrefixHead(parts, i, soFar);
        } else {
          PrefixShift(parts, i, soFar, i + k);
        }
      }
    }
  }

  datatype MobileCrumb = MobileCrumb(text: string, path: string, enabled: bool)

  /** One crumb per part; a crumb is clickable only when its path lies inside
      a shared folder, with backslash as the separator. */
  function Breadcrumbs(parts: seq<string>, shared: seq<string>): (crumbs: seq<MobileCrumb>)
    ensures |crumbs| == |parts|
    ensures forall k :: 0 <= k < |parts| ==>
              && crumbs[k].text == parts[k]
              && crumbs[k].path == Prefixes(parts, 0, "")[k]
              && (crumbs[k].enabled <==> exists i :: 0 <= i < |shared| && Covers(shared[i], crumbs[k].path, '\\'))
  {
    var prefixes := Prefixes(parts, 0, "");
    seq(|parts|, k requires 0 <= k < |parts| => MobileCrumb(parts[k], prefixes[k], AnyCovers(shared, prefixes[k], '\\')))
  }

  /** Each part followed by a backslash. */
  function Trail(parts: seq<string>): string {
    if |parts| == 0 then "" else parts[0] + "\\" + Trail(parts[1..])
  }

  lemma {:induction false} TrailSnoc(parts: seq<string>, p: string)
    ensures Trail(parts + [p]) == Trail(parts) + p + "\\"
    decreases |parts|
  {
    if |parts| > 0 {
      assert (parts + [p])[1..] == parts[1..] + [p];
      TrailSnoc(parts[1..], p);
    } else {
      assert [p][1..] == [];
    }
  }

  /** The closed form of the k-th accumulated path. */
  function Shape(parts: seq<string>, k: nat): string
    requires k < |parts|
  {
    if IsDriveToken(parts[0]) then Trail(parts[..k + 1]) else parts[0] + Trail(parts[1..k + 1])
  }

  /** The first accumulated path. */
  lemma ShapeFirst(parts: seq<string>)
    requires |parts| >= 1
    ensures Shape(parts, 0) == if IsDriveToken(parts[0]) then parts[0] + "\\" else parts[0]
  {
    assert parts[..1] == [parts[0]];
    assert parts[1..1] == [];
    assert Trail([parts[0]]) == parts[0] + "\\" + Trail([]);
  }

  /** Extending a prefix of the parts by one adds that part and a backslash. */
  lemma TrailStep(s: seq<string>, i: nat)
    requires i < |s|
    ensures Trail(s[..i + 1]) == Trail(s[..i]) + s[i] + "\\"
  {
    TrailSnoc(s[..i], s[i]);
    assert s[..i] + [s[i]] == s[..i + 1];
  }

  /** Behind a drive, a step of the closed form. */
  lemma DriveShapeStep(parts: seq<string>, i: nat)
    requires 0 < i < |parts| && IsDriveToken(parts[0])
    ensures Shape(parts, i - 1) == Trail(parts[..i]) && Shape(parts, i) == Trail(parts[..i + 1])
    ensures Trail(parts[..i]) != ""
    ensures Trail(parts[..i + 1]) == Trail(parts[..i]) + parts[i] + "\\"
  {
    TrailStep(parts, i);
    var head := parts[..i];
    assert Trail(head) == head[0] + "\\" + Trail(head[1..]);
  }

  /** Off a drive, a step of the closed form. */
  lemma NameShapeStep(parts: seq<string>, i: nat)
    requires 0 < i < |parts| && !IsDriveToken(parts[0]) && parts[0] != ""
    ensures Shape(parts, i - 1) != ""
    ensures Shape(parts, i) == Shape(parts, i - 1) + parts[i] + "\\"
  {
    var tail := parts[1..];
    TrailStep(tail, i - 1);
    assert tail[..i] == parts[1..i + 1];
    assert tail[..i - 1] == parts[1..i];
    assert tail[i - 1] == parts[i];
    var t := Trail(parts[1..i]);
    assert Shape(parts, i) == parts[0] + (t + parts[i] + "\\");
    assert Shape(parts, i - 1) == parts[0] + t;
    assert parts[0] + (t + parts[i] + "\\") == (parts[0] + t) + parts[i] + "\\";
  }

  /** One step of the walk after the first part extends the closed form. */
  lemma ShapeStep(parts: seq<string>, i: nat)
    requires 0 < i < |parts|
    requires forall j :: 0 <= j < |parts| ==> parts[j] != ""
    ensures Shape(parts, i - 1) != ""
    ensures Shape(parts, i) == Shape(parts, i - 1) + parts[i] + "\\"
  {
    if IsDriveToken(parts[0]) {
      DriveShapeStep(parts, i);
    } else {
      NameShapeStep(parts, i);
    }
  }

  /** The walk's next accumulated path, in closed form. */
  lemma NextIsShape(parts: seq<string>, i: nat, soFar: string)
    requires i < |parts|
    requires forall j :: 0 <= j < |parts| ==> parts[j] != ""
    requires i == 0 ==> soFar == ""
    requires i > 0 ==> soFar == Shape(parts, i - 1)
    ensures Accumulate(soFar, parts[i], i) == Shape(parts, i)
  {
    if i == 0 {
      ShapeFirst(parts);
    } else {
      ShapeStep(parts, i);
    }
  }

  /** The accumulated paths in closed form: behind a drive every part carries
      its backslash; otherwise the first part carries none. */
  lemma {:induction false} PrefixShape(parts: seq<string>, i: nat, soFar: string, k: nat)
    requires i <= k < |parts|
    requires forall j :: 0 <= j < |parts| ==> parts[j] != ""
    requires i == 0 ==> soFar == ""
    requires i > 0 ==> soFar == Shape(parts, i - 1)
    ensures Prefixes(parts, i, soFar)[k - i] == Shape(parts, k)
    decreases k - i
  {
    var next := Accumulate(soFar, parts[i], i);
    assert next == Shape(parts, i) by {
      NextIsShape(parts, i, soFar);
    }
    if k == i {
      PrefixHead(parts, i, soFar);
    } else {
      assert Prefixes(parts, i + 1, next)[k - i - 1] == Shape(parts, k) by {
        PrefixShape(parts, i + 1, next, k);
      }
      PrefixShift(parts, i, soFar, k);
    }
  }

  /** As written, off a drive the first two names are glued together: the
      second crumb of /home/user stands for "homeuser\". */
  lemma FirstTwoNamesGlued(path: string)
    requires var parts := PathParts(path); |parts| >= 2 && !IsDriveToken(parts[0])
    ensures var parts := PathParts(path);
            Prefixes(parts, 0, "")[1] == parts[0] + parts[1] + "\\"
  {
    var parts := PathParts(path);
    PrefixShape(parts, 0, "", 1);
    assert Shape(parts, 1) == parts[0] + Trail(parts[1..2]);
    assert parts[1..2] == [parts[1]];
    assert Trail([parts[1]]) == parts[1] + "\\" + Trail([]);
  }

  /** A path that continues a root contains every character of the root. */
  lemma SlashCarriesOver(p: string, root: string)
    requires HasPrefix(p, root + ['\\']) && '/' in root
    ensures '/' in p
  {
    var j :| 0 <= j < |root| && root[j] == '/';
    assert p[..|root| + 1][j] == root[j];
  }

  /** Shared folders written with slashes, as a Unix server reports them,
      enable no crumb: the crumb paths never contain a slash. */
  lemma SlashRootsDisableEveryCrumb(path: string, shared: seq<string>)
    requires forall i :: 0 <= i < |shared| ==> '/' in shared[i]
    ensures forall c :: c in Breadcrumbs(PathParts(path), shared) ==> !c.enabled
  {
    var parts := PathParts(path);
    var crumbs := Breadcrumbs(parts, shared);
    var prefixes := Prefixes(parts, 0, "");
    forall k, i | 0 <= k < |crumbs| && 0 <= i < |shared|
      ensures !Covers(shared[i], crumbs[k].path, '\\')
    {
      var p := crumbs[k].path;
      assert p == prefixes[k];
      PrefixesHaveNoSlash(parts, 0, "");
      assert '/' !in p;
      if HasPrefix(p, shared[i] + ['\\']) {
        SlashCarriesOver(p, shared[i]);
        assert false;
      }
    }
  }

  // ---------------------------------------------------------------------------
  // formatSize
  // ---------------------------------------------------------------------------

  const Units: seq<string> := ["B", "KB", "MB", "GB"]

  /** The unit the fixed thresholds pick; everything from 1 GiB up is in GB. */
  function UnitIndex(bytes: nat): (u: nat)
    ensures u < |Units|
    ensures u > 0 ==> Pow(1024, u) <= bytes
    ensures u < 3 ==> bytes < Pow(1024, u + 1)
  {
    assert Pow(1024, 1) == 1024 && Pow(1024, 2) == 1024 * 1024 && Pow(1024, 3) == 1024 * 1024 * 1024;
    if bytes < 1024 then 0 else if bytes < 1024 * 1024 then 1 else if bytes < 1024 * 1024 * 1024 then 2 else 3
  }

  function FormatSize(bytes: nat): string {
    if bytes < 1024 then NatToString(bytes) + " B"
    else if bytes < 1024 * 1024 then ToFixed(bytes, 1024, 2) + " KB"
    else if bytes < 1024 * 1024 * 1024 then ToFixed(bytes, 1024 * 1024, 2) + " MB"
    else ToFixed(bytes, 1024 * 1024 * 1024, 2) + " GB"
  }

  /** The number before the unit, read back: bytes exactly, or the size in the
      unit rounded to hundredths. */
  predicate ReadsBack(number: string, bytes: nat, u: nat)
    requires u < |Units|
  {
    if u == 0 then AllDigits(number) && DigitsValue(number) == bytes
    else
      var k := |number| - 3;
      && 1 <= k && number[k] == '.'
      && AllDigits(number[..k]) && AllDigits(number[k + 1..])
      && DigitsValue(number[..k]) * 100 + DigitsValue(number[k + 1..]) == RoundHalfUp(bytes * 100, Pow(1024, u))
  }

  /** The number in front of the unit. */
  function Number(bytes: nat): string {
    var u := UnitIndex(bytes);
    if u == 0 then NatToString(bytes) else ToFixed(bytes, Pow(1024, u), 2)
  }

  /** Each branch prints the number for its threshold and then its unit. */
  lemma NumberThenUnit(bytes: nat)
    ensures FormatSize(bytes) == Number(bytes) + " " + Units[UnitIndex(bytes)]
  {
    assert Pow(1024, 1) == 1024 && Pow(1024, 2) == 1024 * 1024 && Pow(1024, 3) == 1024 * 1024 * 1024;
  }

  lemma NumberReadsBack(bytes: nat)
    ensures |Number(bytes)| >= 1 && ReadsBack(Number(bytes), bytes, UnitIndex(bytes))
  {
    var u := UnitIndex(bytes);
    if u > 0 {
      assert Pow(10, 2) == 100;
      ToFixedReadBack(bytes, Pow(1024, u), 2);
    }
  }

  /** Every rendering ends in a space and the threshold's unit, and the number
      in front reads back to the size. */
  lemma FormatSizeReadBack(bytes: nat)
    ensures var r := FormatSize(bytes);
            var u := UnitIndex(bytes);
            var k := |r| - |Units[u]| - 1;
            && 1 <= k && r[k] == ' ' && r[k + 1..] == Units[u]
            && ReadsBack(r[..k], bytes, u)
  {
    NumberThenUnit(bytes);
    NumberReadsBack(bytes);
    UnitSuffix(Number(bytes), Units[UnitIndex(bytes)]);
  }
}

=== FILE: models.dfy ===
/** The records the handlers exchange (models/disk.go) and the host services
    they call but that are not part of this model: path cleaning, the file
    system, MIME sniffing, URL escaping, disk enumeration and the clock. */
module Models {
  import opened Base

  /** One volume or shared root with its space figures (Go's uint64 fields). */
  datatype Disk = Disk(name: string, path: string, used: nat, total: nat)

  /** The `mediaType` JSON field; `NoMedia` is the omitted (empty) value. */
  datatype MediaKind = NoMedia | Image | Video | Audio

  /** One row of a listing. An empty `thumbnail` is the omitted field. */
  datatype DirEntry = DirEntry(
    name: string,
    path: string,
    isDir: bool,
    size: int,
    modTime: string,
    thumbnail: string,
    mediaType: MediaKind,
    isShared: bool,
    used: nat,
    total: nat)

  /** What an os.FileInfo reports; `modTime` is already in RFC 3339 form. */
  datatype FileInfo = FileInfo(name: string, isDir: bool, size: int, modTime: string)

  /** A detected MIME type: its canonical name and the aliases `Is` accepts. */
  datatype MimeInfo = MimeInfo(name: string, aliases: set<string>)

  predicate MimeIs(m: MimeInfo, t: string) {
    t == m.name || t in m.aliases
  }

  /** Outcome of os.Open followed by Readdir(-1). */
  datatype DirRead = OpenFailed | ReadFailed | Entries(files: seq<FileInfo>)

  /** Outcome of os.Open followed by File.Stat. */
  datatype FileOpen = OpenError | StatError | Opened(size: int)

  /** Outcome of imaging.Open, Thumbnail and Encode on an image file. */
  datatype ThumbResult = ThumbWritten | ImageOpenFailed | EncodeFailed

  /** The services the handlers use, as the values they return. */
  datatype Host = Host(
    sep: char,                              // filepath.Separator
    clean: string -> string,                // filepath.Clean
    isAbs: string -> bool,                  // filepath.IsAbs
    dir: string -> string,                  // filepath.Dir
    join: (string, string) -> string,       // filepath.Join
    stat: string -> Option<FileInfo>,       // os.Stat
    readDir: string -> DirRead,             // os.Open + Readdir
    openFile: string -> FileOpen,           // os.Open + Stat
    detectMime: string -> Option<MimeInfo>, // mimetype.DetectFile
    queryEscape: string -> string,          // url.QueryEscape
    queryUnescape: string -> Option<string>,// url.QueryUnescape
    thumbnail: string -> ThumbResult,       // imaging.Open, Thumbnail and Encode
    seekOk: (string, int) -> bool,          // File.Seek to the offset succeeds
    disks: Option<seq<Disk>>,               // per-OS volume enumeration; None on an unsupported OS
    now: string)                            // time.Now() in RFC 3339

  /** models.NewDirEntry: a field copy whose path is the cleaned join of the
      parent and the name. */
  function NewDirEntry(f: FileInfo, parent: string, host: Host): (e: DirEntry)
    ensures e.name == f.name && e.isDir == f.isDir && e.size == f.size
    ensures e.mediaType == NoMedia && e.thumbnail == "" && !e.isShared
  {
    DirEntry(f.name, host.clean(host.join(parent, f.name)), f.isDir, f.size, f.modTime,
             "", NoMedia, false, 0, 0)
  }
}

=== FILE: registry.dfy ===
/** The in-memory list of shared folders kept by db/database.go beside its
    `shared_folders` table. Path cleaning, the file-system check and the
    outcome of each SQL statement are parameters. */
module Registry {
  import opened Base

  /** Why an update was refused. */
  datatype Failure = StatFailed | InsertFailed | DeleteFailed

  /** The error an operation returns and the list it leaves behind. */
  datatype Update = Update(err: Option<Failure>, folders: seq<string>)

  predicate NoDuplicates(s: seq<string>) {
    forall i, j :: 0 <= i < j < |s| ==> s[i] != s[j]
  }

  /** AddSharedFolder: the cleaned path must exist and be inserted into the
      table; it is then appended unless the list already holds it. */
  function AddSharedFolder(folders: seq<string>, path: string, clean: string -> string,
                           exists_: string -> bool, insertOk: bool): (u: Update)
    ensures u.err.None? <==> exists_(clean(path)) && insertOk
    ensures !exists_(clean(path)) ==> u.err == Some(StatFailed)
    ensures u.err.Some? ==> u.folders == folders
    ensures u.err.None? ==> clean(path) in u.folders
    ensures clean(path) in folders ==> u.folders == folders
    ensures clean(path) !in folders && u.err.None? ==> u.folders == folders + [clean(path)]
    ensures NoDuplicates(folders) ==> NoDuplicates(u.folders)
  {
    var cleanPath := clean(path);
    if !exists_(cleanPath) then Update(Some(StatFailed), folders)
    else if !insertOk then Update(Some(InsertFailed), folders)
    else if cleanPath in folders then Update(None, folders)
    else Update(None, folders + [cleanPath])
  }

  /** Sharing the same path twice leaves the list as the first share left it. */
  lemma AddIdempotent(folders: seq<string>, path: string, clean: string -> string,
                      exists_: string -> bool, insertOk: bool)
    ensures var once := AddSharedFolder(folders, path, clean, exists_, insertOk).folders;
            AddSharedFolder(once, path, clean, exists_, insertOk).folders == once
  {
  }

  /** The position at which the loop over the list first meets `x`. */
  function FirstIndex(s: seq<string>, x: string): (i: nat)
    requires x in s
    ensures i < |s| && s[i] == x && x !in s[..i]
  {
    if s[0] == x then 0
    else
      assert x in s[1..] by {
        var j :| 0 <= j < |s| && s[j] == x;
        assert s[1..][j - 1] == x;
      }
      var j := FirstIndex(s[1..], x);
      assert s[..j + 1] == [s[0]] + s[1..][..j];
      j + 1
  }

  /** The list without its first element equal to `x`; unchanged when absent. */
  function RemoveFirst(s: seq<string>, x: string): (r: seq<string>)
    ensures x !in s ==> r == s
    ensures x in s ==> exists i :: 0 <= i < |s| && s[i] == x && x !in s[..i] && r == s[..i] + s[i + 1..]
  {
    if x in s then
      var i := FirstIndex(s, x);
      s[..i] + s[i + 1..]
    else s
  }

  /** Reading past the removed position shifts the index by one. */
  lemma RemoveAtIndex(s: seq<string>, i: nat, k: nat)
    requires i < |s| && k < |s| - 1
    ensures (s[..i] + s[i + 1..])[k] == s[if k < i then k else k + 1]
  {
  }

  lemma RemoveFirstKeepsDistinct(s: seq<string>, x: string)
    ensures NoDuplicates(s) ==> NoDuplicates(RemoveFirst(s, x)) && x !in RemoveFirst(s, x)
  {
    var r := RemoveFirst(s, x);
    if NoDuplicates(s) && x in s {
      var i :| 0 <= i < |s| && s[i] == x && x !in s[..i] && r == s[..i] + s[i + 1..];
      forall a, b | 0 <= a < b < |r|
        ensures r[a] != r[b]
      {
        RemoveAtIndex(s, i, a);
        RemoveAtIndex(s, i, b);
      }
      forall k | 0 <= k < |r|
        ensures r[k] != x
      {
        RemoveAtIndex(s, i, k);
      }
    }
  }

  /** RemoveSharedFolder: after the table delete succeeds, the first matching
      element goes; a path not in the list is not an error. */
  function RemoveSharedFolder(folders: seq<string>, path: string, clean: string -> string,
                              deleteOk: bool): (u: Update)
    ensures !deleteOk ==> u == Update(Some(DeleteFailed), folders)
    ensures deleteOk ==> u.err.None?
    ensures clean(path) !in folders ==> u.folders == folders
    ensures deleteOk && clean(path) in folders ==>
              exists i :: 0 <= i < |folders| && folders[i] == clean(path) && clean(path) !in folders[..i]
                          && u.folders == folders[..i] + folders[i + 1..]
    ensures NoDuplicates(folders) ==> NoDuplicates(u.folders)
    ensures NoDuplicates(folders) && deleteOk ==> clean(path) !in u.folders
  {
    if !deleteOk then Update(Some(DeleteFailed), folders)
    else
      RemoveFirstKeepsDistinct(folders, clean(path));
      Update(None, RemoveFirst(folders, clean(path)))
  }

  /** Sharing a new path and then unsharing it restores the list. */
  lemma AddThenRemove(folders: seq<string>, path: string, clean: string -> string,
                      exists_: string -> bool)
    requires clean(path) !in folders && exists_(clean(path))
    ensures var added := AddSharedFolder(folders, path, clean, exists_, true).folders;
            RemoveSharedFolder(added, path, clean, true).folders == folders
  {
    var x := clean(path);
    var added := folders + [x];
    var i :| 0 <= i < |added| && added[i] == x && x !in added[..i]
             && RemoveFirst(added, x) == added[..i] + added[i + 1..];
    assert forall k :: 0 <= k < |folders| ==> added[k] == folders[k];
    assert i == |folders|;
    assert added[..i] == folders;
  }

  /** The rows read by LoadSharedFolders: the cleaned forms of those that scan
      and still exist, in row order. A row that fails to scan is None. */
  function LoadRows(rows: seq<Option<string>>, clean: string -> string, exists_: string -> bool): (r: seq<string>)
    ensures |r| <= |rows|
    ensures forall x :: x in r ==>
              exists i :: 0 <= i < |rows| && rows[i].Some? && exists_(rows[i].value) && x == clean(rows[i].value)
    ensures forall i :: 0 <= i < |rows| && rows[i].Some? && exists_(rows[i].value) ==> clean(rows[i].value) in r
  {
    if |rows| == 0 then []
    else
      var rest := LoadRows(rows[1..], clean, exists_);
      assert forall i :: 1 <= i < |rows| ==> rows[i] == rows[1..][i - 1];
      if rows[0].Some? && exists_(rows[0].value) then [clean(rows[0].value)] + rest
      else rest
  }

  /** LoadSharedFolders: a failed query keeps the list; otherwise it is rebuilt. */
  function LoadSharedFolders(current: seq<string>, query: Option<seq<Option<string>>>,
                             clean: string -> string, exists_: string -> bool): (r: seq<string>)
    ensures query.None? ==> r == current
    ensures query.Some? ==> r == LoadRows(query.value, clean, exists_)
  {
    match query
    case None => current
    case Some(rows) => LoadRows(rows, clean, exists_)
  }

  /** Loading keeps row order: it distributes over concatenation of the rows. */
  lemma {:induction false} LoadRowsAppend(a: seq<Option<string>>, b: seq<Option<string>>,
                                          clean: string -> string, exists_: string -> bool)
    ensures LoadRows(a + b, clean, exists_) == LoadRows(a, clean, exists_) + LoadRows(b, clean, exists_)
    decreases |a|
  {
    if |a| > 0 {
      var ab := a + b;
      assert ab[1..] == a[1..] + b;
      assert ab[0] == a[0];
      LoadRowsAppend(a[1..], b, clean, exists_);
      var head: seq<string> := if a[0].Some? && exists_(a[0].value) then [clean(a[0].value)] else [];
      assert LoadRows(ab, clean, exists_) == head + LoadRows(a[1..] + b, clean, exists_);
      assert LoadRows(a, clean, exists_) == head + LoadRows(a[1..], clean, exists_);
    } else {
      assert a + b == b;
    }
  }

  /** Rows as AddSharedFolder writes them — already clean and, by the table's
      UNIQUE constraint, distinct — load into a list without duplicates. */
  lemma {:induction false} LoadOfStoredRowsIsDistinct(rows: seq<Option<string>>, clean: string -> string,
                                                      exists_: string -> bool)
    requires forall i :: 0 <= i < |rows| && rows[i].Some? ==> clean(rows[i].value) == rows[i].value
    requires forall i, j :: 0 <= i < j < |rows| && rows[i].Some? && rows[j].Some? ==> rows[i].value != rows[j].value
    ensures NoDuplicates(LoadRows(rows, clean, exists_))
    decreases |rows|
  {
    if |rows| > 0 {
      var tail := rows[1..];
      LoadOfStoredRowsIsDistinct(tail, clean, exists_);
      var rest := LoadRows(tail, clean, exists_);
      if rows[0].Some? && exists_(rows[0].value) {
        var p := rows[0].value;
        forall i | 0 <= i < |tail| && tail[i].Some? && exists_(tail[i].value)
          ensures clean(tail[i].value) != p
        {
          assert tail[i] == rows[i + 1];
        }
        assert p !in rest;
        var r := [p] + rest;
        forall a, b | 0 <= a < b < |r|
          ensures r[a] != r[b]
        {
          if a == 0 {
            assert r[b] == rest[b - 1];
          } else {
            assert r[a] == rest[a - 1] && r[b] == rest[b - 1];
          }
        }
      }
    }
  }
}
